=== FILE: README.md ===
# axe, modelled in Dafny

axe is a terminal chat assistant for coding. It keeps every message in a
SQLite log keyed by a session id derived from the working directory. It
routes prompts to one of ten model providers chosen in `~/.axe/config.json`,
and gives the model three kinds of tools: MCP file-system and web-search
servers, plus an in-process shell tool. Its Ink/React interface shows the
chat, a history view, a provider picker and a model picker.

This project models the core of that program as pure functions over
immutable values:

| module | file | models |
|---|---|---|
| `Results` | results.dfy | `Option` and `Result` |
| `Text` | text.dfy | the JavaScript string operations the source uses: `trim`, `split`/`join`, `includes`, `startsWith`/`endsWith`, `toLowerCase`, decimal rendering, and `\|\|` on strings |
| `Log` | log.dfy | the message log of `src/lib/db.ts` |
| `Ignore` | ignore.dfy | `.gitignore` parsing, `isIgnored` and the project walk of `src/lib/filesystem.ts` |
| `Config` | config.dfy | the configuration store of `src/lib/config.ts` |
| `Provider` | provider.dfy | provider routing and the model catalogue of `src/lib/provider.ts` |
| `Shell` | shell.dfy | the result text of the shell tool in `src/tools/shell.ts` |
| `Agent` | agent.dfy | one non-streaming turn, `runAgent` of `src/lib/agent.ts` |
| `SessionPicker` | picker.dfy | selection and date labels of `src/ui/session-picker.tsx` |
| `InputArea` | input.dfy | the submit guard of `src/ui/input-area.tsx` |
| `Controller` | controller.dfy | the `App` component of `src/app.tsx`: the key handler of the picker views, command dispatch, and one streamed turn |

Effects become values:
- The database is a `Log.Table`: rows in storage order plus the AUTOINCREMENT counter.
- The config file is `Config.ConfigFile`: missing, unparsable, or parsed fields.
- The directory tree is a `Ignore.Entry` value.
- A spawned process is a `Shell.Spawn` outcome.
- Starting each MCP client is a `Result` value: a client whose `tools()` lists tools or throws, or the error the start threw.
- The model's `generate` call and the agent's event stream are function-valued parameters.
- Clock readings are integer parameters.

The model represents the error paths listed here as values (a `Result`, an
`Option`, or a constructor of its own); the others are named under "Left out":
- the unknown-provider error of `getModel`;
- an exception in a `runAgent` step before anything is saved, which becomes the `Error: …` text;
- a failed database load at start-up;
- the `TypeError` thrown by Enter in the provider view when the selection is out of range;
- a missing or unreadable `.gitignore` or config file;
- a missing or unparsable `last_message_at` in the session picker, which renders as an invalid date;
- an exception from spawning the shell tool's process (`Shell.Spawn.Threw`), which becomes the `Error: …` text;
- an error thrown by the agent stream during a turn (the `failure` of `Controller.StreamRun`), which is recorded as the error;
- a directory entry whose `statSync` throws (`Ignore.Entry.Unstattable`), which ends the listing of its directory, and a directory whose `readdirSync` throws (`readable == false`), which lists nothing.

## Model

| member | source | states |
|---|---|---|
| Log.InitSchema | src/lib/db.ts:10-21 | start-up leaves a table and the session index; an existing table is kept as is, a new one is empty and valid |
| Log.InitSchemaIdempotent | src/lib/db.ts:10-21 | the IF NOT EXISTS statements change nothing when run a second time |
| Log.SaveMessage | src/lib/db.ts:39-44 | exactly one row is appended, tagged with the process's session id and directory and the given role and content; earlier rows are untouched; validity is preserved and the new id exceeds every earlier id |
| Log.NewestFirstIsWindow | src/lib/db.ts:46-52 | reversing the ORDER BY id DESC LIMIT scan gives the last `limit` rows of the session in storage order |
| Log.NewestFirst | src/lib/db.ts:47-50 | the scan returns only rows of the queried session, and no more than `limit` of them when the limit is not negative |
| Log.Reverse | src/lib/db.ts:51 | `reverse`: same length, and position `i` holds the input's element at position `n-1-i` |
| Log.NewestFirstDescending | src/lib/db.ts:48 | in a valid table the scan returns rows in strictly descending id order |
| Log.GetSessionMessages | src/lib/db.ts:68-74 | with `limit` defaulting to 50, the result is the last `limit` rows of the session (all of them for a negative limit), oldest first, all of that session, with strictly ascending ids in a valid table |
| Log.GetRecentMessages | src/lib/db.ts:46-52 | the same window, `limit` again defaulting to 50, over the process's own session |
| Log.RecentIsOwnSession | src/lib/db.ts:46-52 | `getRecentMessages` agrees with `getSessionMessages` for the process's own session id |
| Log.SavedMessageIsRecent | src/lib/db.ts:39-52 | after a save, the saved content is the newest message the recent-messages query returns |
| Log.SessionIds | src/lib/db.ts:62 | GROUP BY: the listed ids are distinct and are exactly the ids that occur in the table |
| Log.Peak | src/lib/db.ts:60 | MAX(created_at): the chosen row is in the group and no row of the group is later |
| Log.Insert | src/lib/db.ts:63 | inserting into a list sorted newest first keeps it sorted and adds exactly one element |
| Log.InsertKeepsDistinct | src/lib/db.ts:62-63 | inserting a session not yet listed keeps the session ids distinct |
| Log.SortByLastDesc | src/lib/db.ts:63 | ORDER BY last_message DESC: the output is sorted newest first and is a permutation of the input |
| Log.GetAllSessions | src/lib/db.ts:54-66 | one summary per distinct session id, covering exactly the ids in the table, sorted by last message newest first; each count is the session's row count and is positive; each last message is the greatest timestamp of the session, and the path comes from that row |
| Ignore.PatternLines | src/lib/filesystem.ts:27-30 | every kept line is trimmed, non-empty and not a comment |
| Ignore.PatternLinesMembers | src/lib/filesystem.ts:27-30 | a string is kept exactly when some line trims to it and the trimmed line is non-empty and not a comment |
| Ignore.ParseGitIgnore | src/lib/filesystem.ts:21-34 | a missing or unreadable file gives no patterns; every pattern read is trimmed, non-empty and not a comment |
| Ignore.ParseGitIgnoreMembers | src/lib/filesystem.ts:26-30 | a pattern is read from a file exactly when one of its newline-separated lines trims to it and survives the filter |
| Ignore.FileName | src/lib/filesystem.ts:37 | the file name is the suffix of the path after its last `/`, and contains no `/` |
| Ignore.AnyPatternMatches | src/lib/filesystem.ts:41-51 | the loop reports a match exactly when some pattern matches under its kind: directory pattern, `*` suffix pattern or plain substring |
| Ignore.IsIgnored | src/lib/filesystem.ts:36-53 | a path is ignored exactly when a default name occurs in it or some gitignore pattern matches it |
| Ignore.DefaultAlwaysIgnored | src/lib/filesystem.ts:39 | a path containing a default name is ignored whatever the patterns |
| Ignore.DirectoryPatternIgnores | src/lib/filesystem.ts:42-44 | a pattern `d/` ignores every path containing `d` |
| Ignore.SuffixPatternIgnores | src/lib/filesystem.ts:45-47 | a pattern `*ext` ignores every path whose file name ends with `ext` |
| Ignore.PlainPatternIgnores | src/lib/filesystem.ts:48-50 | any other pattern ignores every path containing it |
| Ignore.IgnoreMonotonic | src/lib/filesystem.ts:36-53 | adding patterns before or after never un-ignores a path |
| Ignore.ChildUnpruned | src/lib/filesystem.ts:64-72 | the path of an entry inside a directory that was walked has no ignored ancestor |
| Ignore.Walk | src/lib/filesystem.ts:59-79 | every listed path is a non-directory entry of the tree (a regular file, FIFO, socket or device), is not ignored, and has no ignored ancestor directory |
| Ignore.WalkExact | src/lib/filesystem.ts:59-79 | when every entry can be stat-ed, a path is listed exactly when it is a non-directory entry of the tree that is neither ignored, nor below an ignored directory, nor below a directory that cannot be listed |
| Ignore.GetAllFilesExact | src/lib/filesystem.ts:55-83 | for a readable root whose entries can all be stat-ed, the listing is exactly the kept files of the tree: its non-directory entries that are not ignored, not below an ignored directory, and not below a directory that cannot be listed |
| Ignore.GetAllFiles | src/lib/filesystem.ts:55-83 | the listing, under the root's own `.gitignore`, holds only files of the tree that are neither ignored nor below an ignored directory |
| Config.Load | src/lib/config.ts:41-52 | a missing or unparsable file gives the defaults; otherwise each top-level field present in the file wins over the default |
| Config.Save | src/lib/config.ts:54-57 | the file afterwards holds all three fields of the config |
| Config.SaveLoad | src/lib/config.ts:41-57 | loading what was saved gives the saved config back |
| Config.GetApiKey | src/lib/config.ts:59-62 | the key is present exactly when the loaded config has one for that provider, and is that key |
| Config.SetApiKey | src/lib/config.ts:64-68 | provider and model are kept |
| Config.SetApiKeyGet | src/lib/config.ts:59-68 | after setting a key, reading it gives the new key and every other provider's key is unchanged |
| Config.SetProvider | src/lib/config.ts:70-75 | the next load sees the new provider, the old keys and, when one is given, the new model |
| Config.SetProviderLoad | src/lib/config.ts:70-75 | loading after `setProvider(p, m)` gives the old config with exactly provider and model replaced |
| Config.SetProviderUndefinedModel | src/lib/config.ts:70-75 | an undefined model is dropped from the file, so the next load falls back to the default model (with defaults that were never written to) |
| Provider.Providers | src/lib/provider.ts:60-71 | the provider list is the catalogue's names in declaration order |
| Provider.ModelsOf | src/lib/provider.ts:60-71 | a provider has a model list exactly when it is in the catalogue, and the list is its catalogue entry |
| Provider.GetModel | src/lib/provider.ts:21-58 | a missing or empty provider or model falls back to the config; a known provider resolves to its backend with the model passed through; compatible providers get their base URL and stored key; any other name is the error `Unknown provider: <name>` |
| Provider.NativeRoutes | src/lib/provider.ts:27-41 | google, anthropic, groq, xai and gemini each route to their own SDK |
| Provider.CatalogueConsistent | src/lib/provider.ts:9-71 | catalogue names are distinct, every list is non-empty, every catalogue provider resolves, and every routed provider is in the catalogue |
| Provider.ModelsOfCatalogue | src/lib/provider.ts:60-71 | looking a catalogue provider up gives its own model list |
| Shell.WorkingDirectory | src/tools/shell.ts:13 | an empty or missing `cwd` falls back to the process directory |
| Shell.Execute | src/tools/shell.ts:10-30 | the result is never empty; a thrown error gives `Error: <message>`; exit code 0 gives stdout, or `(no output)` when stdout is empty; any other code gives the failure header followed by stderr, or stdout when stderr is empty |
| Shell.FailureReportNamesExitCode | src/tools/shell.ts:22-24 | the exit code can be read back from a failure report, whatever the command printed |
| Agent.MergeTools | src/lib/agent.ts:48-52 | the tool set is the union of both clients' tools plus `shell`; the search tools win over the file-system tools, and the shell tool wins over both |
| Agent.Setup | src/lib/agent.ts:25-51 | the request is built exactly when the model resolves, both clients start and both list their tools; otherwise the error is that of the first step that failed; a built request carries the resolved model, the system prompt, the merged tools, the 100-step budget and the history followed by the prompt |
| Agent.BuildMessages | src/lib/agent.ts:56-59 | the messages are the history followed by exactly one user message holding the prompt |
| Agent.RunAgent | src/lib/agent.ts:23-73 | the log is either unchanged or grows by exactly two rows, earlier rows kept, and the last row holds the returned text |
| Agent.RequestShape | src/lib/agent.ts:25-59 | a request that gets built uses the configured model, includes the shell tool, has the 100-step budget, and carries the history followed by one user message with the prompt |
| Agent.SuccessSavesTwoRows | src/lib/agent.ts:61-68 | a successful generation saves the prompt as a user row, then the text as an assistant row, and returns the text; a missing text counts as empty |
| Agent.FailureSavesNothing | src/lib/agent.ts:69-72 | when setup or generation fails, the result is `Error: ` followed by the message of the step that failed, and nothing is saved |
| Agent.StepsRun | src/lib/agent.ts:53 | the loop runs while every step calls a tool, and stops early only after a step that called none |
| Agent.ToolLoopBounded | src/lib/agent.ts:53 | at most 100 steps run, and exactly 100 when every step calls a tool |
| SessionPicker.SelectDefinedOnItems | src/ui/session-picker.tsx:18-32 | Enter hands over a new or existing session exactly when the index is one of the `totalItems` shown; past the end it hands over `undefined` |
| SessionPicker.Select | src/ui/session-picker.tsx:27-32 | item 0, and only item 0, starts a new session; item `i` picks session `i-1`; an index outside the list hands over `undefined` |
| SessionPicker.SelectInjective | src/ui/session-picker.tsx:27-32 | every in-range item selects something, and distinct items select distinct things |
| SessionPicker.DisplayName | src/ui/session-picker.tsx:92 | the session's name, or `Session ` followed by the first eight characters of its id |
| SessionPicker.AgeOf | src/ui/session-picker.tsx:36-48 | the bucket is chosen by the elapsed time, with the floored minute, hour or day count bracketing it |
| SessionPicker.AgeMonotonic | src/ui/session-picker.tsx:36-49 | a longer elapsed time never falls in a younger bucket |
| SessionPicker.FormatDate | src/ui/session-picker.tsx:36-49 | an invalid date renders as `Invalid Date`; under a minute ago (or in the future) is `just now`; then `<m>m ago`, `<h>h ago` and `<d>d ago` with the floored count of the bucket; a week or more gives the locale date |
| SessionPicker.MinutesLabelRoundTrip | src/ui/session-picker.tsx:40-45 | the number in an `<m>m ago` label is the floored minute count |
| InputArea.HandleSubmit | src/ui/input-area.tsx:13-17 | a value is forwarded exactly when no turn is running and the value is not blank; the field is then cleared, and otherwise keeps its text |
| Controller.Init | src/app.tsx:22-40 | the start state is the chat view, idle; its messages are the last 1000 of this directory's session, or the load error is recorded |
| Controller.IndexOf | src/app.tsx:110-120 | `indexOf`: the first position of the value, or -1 exactly when it is absent |
| Controller.Move | src/app.tsx:52-53 | Up is `Math.max(0, idx - 1)` and Down is `Math.min(n - 1, idx + 1)`, each characterised as the bound it meets; other keys keep the selection; an in-range selection stays in range |
| Controller.HandleKey | src/app.tsx:45-97 | keys do nothing in the chat view; in a picker only the messages, view, selection and config can change; only Enter in the provider or model view writes the config file, and only Enter in the history view replaces the messages; the handler throws exactly on Enter in the provider view with no provider selected |
| Controller.NavigationSaturates | src/app.tsx:52-86 | Up and Down move the selection by one, saturating at 0 and at the end of the list; an in-range selection stays in range |
| Controller.EscapeReturnsToChat | src/app.tsx:47-84 | in any picker, Escape or `q` returns to chat and changes nothing else |
| Controller.HistoryEnter | src/app.tsx:54-59 | Enter loads the last 1000 messages of the selected session exactly when the selection names one; otherwise nothing changes |
| Controller.ProviderEnter | src/app.tsx:70-76 | Enter switches to the selected provider and its first catalogue model and keeps the keys; a selection outside the list throws |
| Controller.ModelEnter | src/app.tsx:87-92 | Enter keeps the provider and picks the selected model; with no model selected, the default model is used (with defaults that were never written to) |
| Controller.BeginTurn | src/app.tsx:127-141 | a turn starts busy, with the error cleared, nothing streamed, and the user message appended |
| Controller.Consume | src/app.tsx:151-160 | the accumulated text only grows, and only the streamed text and the thinking note of the state change |
| Controller.AgentHistory | src/app.tsx:144-147 | the agent receives every message's role and content, in order |
| Controller.ConsumeFold | src/app.tsx:151-160 | folding the stream concatenates the text events in order, keeps the latest thinking note, and changes nothing else |
| Controller.FinishTurn | src/app.tsx:162-177 | success appends the assistant message, failure records the error; either way the turn ends idle with nothing streamed |
| Controller.HandleInput | src/app.tsx:99-125 | input never changes the config and only a command changes the view; `/history` opens on the two session lists at item 0; `/provider` and `/model` select the current provider or model, or -1 exactly when it is not listed; any other input runs a turn |
| Controller.Turn | src/app.tsx:127-177 | a prompt ends idle with nothing streamed, in the same view, selection and config, and its messages begin with the prior ones followed by the user message |
| Controller.CommandsStayLocal | src/app.tsx:100-125 | a command, matched case-insensitively and after trimming, never starts a turn; `/clear` empties the messages |
| Controller.TurnOutcome | src/app.tsx:127-177 | a prompt ends idle. On success the messages are the prior ones, the user message, and an assistant message holding all the streamed text. On failure they are the prior ones and the user message, and the error is recorded |
| Controller.NoSubmitDuringTurn | src/app.tsx:127-160 | while a turn is in flight, the input field forwards nothing and keeps its text |
| Text.Trim | src/lib/filesystem.ts:29 | `trim` gives a string with no white space at either end; it is empty exactly when the input is all white space |
| Text.TrimIsSlice | src/lib/filesystem.ts:29 | `trim` removes only white space, and only from the two ends |
| Text.TrimIdempotent | src/lib/filesystem.ts:29 | trimming twice is trimming once |
| Text.Split | src/lib/filesystem.ts:28 | `split` gives at least one part, no part contains the separator, and joining the parts gives back the input |
| Text.SplitJoin | src/lib/filesystem.ts:28 | splitting the join of separator-free parts gives back those parts |
| Text.Contains | src/lib/filesystem.ts:39 | `includes` holds exactly when the substring occurs at some position |
| Text.ToLower | src/app.tsx:100 | `toLowerCase` keeps the length and lowers each character on its own |
| Text.NatToStringRoundTrip | src/tools/shell.ts:23 | the decimal rendering of a number reads back as that number |
| Text.IntToStringRoundTrip | src/tools/shell.ts:23 | the rendering of an exit code, negative ones included, parses back to it |

## Left out

- Rendering: the Ink layout, colours, the message component, the header and the autocomplete are not modelled.
- I/O is not modelled. The SQLite engine, the file system, process spawning and the clock are replaced by values and parameters. Storage errors other than the start-up load failure are not modelled.
- SESSION_ID is an opaque string. The SHA-256 of the working directory and its 16-character prefix are not computed.
- The MCP clients, the AI SDK, the tool-loop agent and the streaming agent are parameters. The streaming agent is used by `src/app.tsx` but is not defined in `src/lib/agent.ts`. The session listings for the current and other directories are parameters too; `src/lib/db.ts` does not define them.
- Concurrency is not modelled. A turn is applied as one step after the stream ends, and updates from other events during the `await`s are not interleaved.
- Agent.RunAgent: never closes the two MCP clients it starts; the model has no client lifecycle.
- Agent.RunAgent: storage errors in `saveMessage` are not modelled. If saving the assistant row throws after the user row was saved, the source returns `Error: …` with one row written, outside the two shapes the contract allows.
- Agent.RunAgent: the `console.error` report in the `catch` is output only and is not modelled.
- Agent.RunAgent: its own contract states only the either-unchanged-or-two-rows shape. Which case happens is stated by Agent.SuccessSavesTwoRows and Agent.FailureSavesNothing.
- Agent.StepsRun: a free-standing model of the step-stop rule of the tool-loop agent. The `generate` parameter does not consume it, so the result of Agent.RunAgent is not tied to the 100-step bound.
- Provider.GetModel: the key read from the config is passed only to the OpenAI-compatible client; the native SDKs read their keys from the environment, which is not modelled.
- Config.Load: `ensureConfigDir` runs outside the `try`, so a failing `mkdirSync` throws out of `loadConfig`; directory creation is not modelled.
- Config.Load: JSON values of the wrong type and unknown top-level fields are not modelled. The file is either unparsable or has the three optional fields.
- Config.Load: the defaults object is shared and mutable in the source. On a missing or unparsable file `loadConfig` returns that object itself, so `setApiKey` and `setProvider` write into it; a file without a `keys` field shares its `keys` object too. The model gives configs value semantics and fixed defaults instead.
- Config.SetProviderUndefinedModel: holds in the model's value semantics only. In the source, on a missing or unparsable file `setProvider` writes the undefined model into the shared defaults, so the next load has no model at all; and after an earlier write into the defaults, the fallback is whatever model was written there, not `gemini-2.5-flash`.
- Controller.ModelEnter: the fallback to `gemini-2.5-flash` when no model is selected inherits the limit of Config.SetProviderUndefinedModel: on a missing or unparsable config file the source leaves the model undefined instead.
- Config.SetProvider: takes any provider name. `gemini` is in the catalogue and the router but not in the `ProviderName` type, which only the type checker enforces.
- Log.SaveMessage: `created_at` is an integer timestamp supplied by the caller, not SQLite's CURRENT_TIMESTAMP text. AUTOINCREMENT overflow is not modelled.
- Log.GetAllSessions: SQL leaves the order of sessions with equal last-message times unspecified; the model fixes one order, and the contract claims only the descending order.
- Ignore.Walk: its own contract states soundness only (every listed path is a kept file of the tree); completeness is proved by Ignore.WalkExact only for trees whose entries can all be stat-ed, because the source stops listing a directory at the first entry whose `statSync` throws.
- Ignore.Walk: symbolic-link cycles are not modelled; the tree is finite.
- Text.ToLower: lowers ASCII letters only. The commands it is matched against are ASCII, but non-ASCII input is not lowered as JavaScript would lower it.
- SessionPicker.DisplayName: the picker reads `id`, `name` and `last_message_at`, fields the `Session` type of `src/lib/db.ts` does not declare. The model gives its session record those fields directly.
- SessionPicker.FormatDate: the locale date text for ages of a week or more is a parameter, and so is the clock reading. Parsing the `last_message_at` text into a time is not modelled: a session carries the parsed time, or none for an invalid date.
- Controller.HandleKey: a storage error thrown by `getSessionMessages` on Enter in the history view is not modelled; the log query always succeeds.
- Controller.Init: the config is read once at mount, as in the source. Later edits to the file are seen only after a picker writes it.
- Controller.TurnOutcome: the user and assistant message ids and timestamps come from the clock readings passed in. The source's `Date.now()` values are not guaranteed distinct from other ids, and that is not modelled.
- `src/lib/prompt.ts`, `src/lib/gateway.ts` and `src/index.tsx` are not part of this model.

=== FILE: agent.dfy ===
/** One non-streaming turn, `runAgent` of src/lib/agent.ts. The MCP clients and
    the `ai` package's tool-loop agent are oracles given as parameters. */
module Agent {
  import opened Results
  import Config
  import Provider
  import Log

  /** A history entry as the model sees it: role and content only. */
  datatype AgentMessage = AgentMessage(role: Log.Role, content: string)

  /** A tool the model may call: one served by an MCP client, or the in-process shell tool. */
  datatype Tool = McpTool(server: string, name: string) | ShellTool

  type ToolMap = map<string, Tool>

  /** A started MCP client; `tools()` either lists its tools or throws. */
  datatype McpClient = McpClient(tools: Result<ToolMap, string>)

  /** stopWhen: stepCountIs(100). */
  const StepBudget: nat := 100

  /** The system prompt handed to the agent as its instructions. */
  const Instructions :=
    "You are an AI-powered code editor assistant running in a TUI.\n"
    + "You have access to:\n"
    + "- File system (read, write, list, search files via MCP)\n"
    + "- Shell commands (run terminal commands)\n"
    + "- Web search (search DuckDuckGo for docs, references, solutions)\n"
    + "- Fetch content (grab webpage content for context)\n"
    + "\n"
    + "Always use tools when needed. Be concise and helpful."

  /** Everything the agent's `generate` call receives. */
  datatype Request = Request(model: Provider.Model, instructions: string, tools: ToolMap, stepBudget: nat, messages: seq<AgentMessage>)

  /** The effects `runAgent` depends on: the config file, starting the two MCP
      clients, the generation call (text, possibly undefined, or an error), the
      process identity and the clock for the saved rows. */
  datatype Env = Env(
    config: Config.ConfigFile,
    startFs: Result<McpClient, string>,
    startSearch: Result<McpClient, string>,
    generate: Request -> Result<Option<string>, string>,
    process: Log.Process,
    now: int)

  /** `{ ...fsTools, ...searchTools, shell: shellTool }`. */
  function MergeTools(fsTools: ToolMap, searchTools: ToolMap): (m: ToolMap)
    ensures m.Keys == fsTools.Keys + searchTools.Keys + {"shell"}
    ensures m["shell"] == ShellTool
    ensures forall k :: k in searchTools && k != "shell" ==> m[k] == searchTools[k]
    ensures forall k :: k in fsTools && k !in searchTools && k != "shell" ==> m[k] == fsTools[k]
  {
    fsTools + searchTools + map["shell" := ShellTool]
  }

  /** The history's role and content followed by the new prompt as a user message. */
  function BuildMessages(history: seq<AgentMessage>, prompt: string): (ms: seq<AgentMessage>)
    ensures |ms| == |history| + 1
    ensures ms[..|history|] == history
    ensures ms[|history|] == AgentMessage(Log.User, prompt)
  {
    history + [AgentMessage(Log.User, prompt)]
  }

  /** Everything `runAgent` does before generating: load the config, resolve
      the model, start both MCP clients, list their tools, and build the request.
      The first step that throws gives the error. */
  function Setup(env: Env, prompt: string, history: seq<AgentMessage>): (r: Result<Request, string>)
    ensures var model := Provider.GetModel(env.config, Some(Config.Load(env.config).provider), Some(Config.Load(env.config).model));
            r.Ok? <==> && model.Ok? && env.startFs.Ok? && env.startSearch.Ok?
                       && env.startFs.value.tools.Ok? && env.startSearch.value.tools.Ok?
    ensures var model := Provider.GetModel(env.config, Some(Config.Load(env.config).provider), Some(Config.Load(env.config).model));
            r.Err? ==> r.error == (if model.Err? then model.error
                                  else if env.startFs.Err? then env.startFs.error
                                  else if env.startSearch.Err? then env.startSearch.error
                                  else if env.startFs.value.tools.Err? then env.startFs.value.tools.error
                                  else env.startSearch.value.tools.error)
    ensures r.Ok? ==> && r.value.model == Provider.GetModel(env.config, Some(Config.Load(env.config).provider), Some(Config.Load(env.config).model)).value
                      && r.value.instructions == Instructions && r.value.stepBudget == StepBudget
                      && r.value.messages == BuildMessages(history, prompt)
                      && r.value.tools == MergeTools(env.startFs.value.tools.value, env.startSearch.value.tools.value)
  {
    var config := Config.Load(env.config);
    match Provider.GetModel(env.config, Some(config.provider), Some(config.model))
    case Err(e) => Err(e)
    case Ok(model) =>
      match (env.startFs, env.startSearch)
      case (Err(e), _) => Err(e)
      case (Ok(_), Err(e)) => Err(e)
      case (Ok(fs), Ok(search)) =>
        match (fs.tools, search.tools)
        case (Err(e), _) => Err(e)
        case (Ok(_), Err(e)) => Err(e)
        case (Ok(fsTools), Ok(searchTools)) =>
          Ok(Request(model, Instructions, MergeTools(fsTools, searchTools), StepBudget, BuildMessages(history, prompt)))
  }

  /** `runAgent(prompt, history)`: the text returned and the log afterwards.
      Either nothing is saved, or exactly two rows are appended, the second
      holding the returned text. */
  function RunAgent(env: Env, t: Log.Table, prompt: string, history: seq<AgentMessage>): (r: (string, Log.Table))
    ensures r.1 == t || (|r.1.rows| == |t.rows| + 2 && r.1.rows[..|t.rows|] == t.rows
                         && r.1.rows[|t.rows| + 1].content == r.0)
  {
    match Setup(env, prompt, history)
    case Err(e) => ("Error: " + e, t)
    case Ok(request) =>
      match env.generate(request)
      case Err(e) => ("Error: " + e, t)
      case Ok(result) =>
        var text := result.GetOr("");
        var t1 := Log.SaveMessage(t, env.process, Log.User, prompt, env.now);
        var t2 := Log.SaveMessage(t1, env.process, Log.Assistant, text, env.now);
        assert t2.rows[..|t.rows|] == t1.rows[..|t.rows|];
        (text, t2)
  }

  /** The request carries the history plus exactly one user message, the merged
      tools with `shell` in-process, and a budget of 100 steps. */
  lemma RequestShape(env: Env, prompt: string, history: seq<AgentMessage>)
    requires Setup(env, prompt, history).Ok?
    ensures var q := Setup(env, prompt, history).value;
            && |q.messages| == |history| + 1
            && q.messages[..|history|] == history
            && q.messages[|history|] == AgentMessage(Log.User, prompt)
            && q.stepBudget == 100
            && "shell" in q.tools && q.tools["shell"] == ShellTool
            && q.model.modelId == Config.Load(env.config).model
  {
  }

  /** A successful turn appends exactly the user row then the assistant row,
      and returns the text it saved (an undefined text counting as ""). */
  lemma SuccessSavesTwoRows(env: Env, t: Log.Table, prompt: string, history: seq<AgentMessage>)
    requires Setup(env, prompt, history).Ok?
    requires env.generate(Setup(env, prompt, history).value).Ok?
    ensures var (text, t') := RunAgent(env, t, prompt, history);
            && text == env.generate(Setup(env, prompt, history).value).value.GetOr("")
            && |t'.rows| == |t.rows| + 2
            && t'.rows[..|t.rows|] == t.rows
            && t'.rows[|t.rows|].role == Log.User && t'.rows[|t.rows|].content == prompt
            && t'.rows[|t.rows| + 1].role == Log.Assistant && t'.rows[|t.rows| + 1].content == text
            && t'.rows[|t.rows|].sessionId == env.process.sessionId
            && t'.rows[|t.rows| + 1].sessionId == env.process.sessionId
            && (Log.Valid(t) ==> Log.Valid(t') && t'.rows[|t.rows|].id < t'.rows[|t.rows| + 1].id)
  {
    var (text, t') := RunAgent(env, t, prompt, history);
    var t1 := Log.SaveMessage(t, env.process, Log.User, prompt, env.now);
    assert t'.rows[..|t1.rows|] == t1.rows;
    assert t'.rows[..|t.rows|] == t1.rows[..|t.rows|];
  }

  /** When setup or generation fails, the result is an error text and nothing is saved. */
  lemma FailureSavesNothing(env: Env, t: Log.Table, prompt: string, history: seq<AgentMessage>)
    requires Setup(env, prompt, history).Err? ||
             env.generate(Setup(env, prompt, history).value).Err?
    ensures var (text, t') := RunAgent(env, t, prompt, history);
            var s := Setup(env, prompt, history);
            && t' == t
            && text == "Error: " + (if s.Err? then s.error else env.generate(s.value).error)
  {
  }

  /** The tool loop's stop rule: keep stepping while the last step called a tool
      and fewer than `budget` steps have run. `callsTool(k)` says whether step
      `k` ended with tool calls. Returns the number of steps run. */
  function StepsRun(callsTool: nat -> bool, budget: nat, done: nat): (n: nat)
    requires 1 <= done <= budget
    ensures done <= n <= budget
    ensures n < budget ==> !callsTool(n - 1)
    ensures forall k :: done - 1 <= k < n - 1 ==> callsTool(k)
    decreases budget - done
  {
    if done == budget || !callsTool(done - 1) then done
    else StepsRun(callsTool, budget, done + 1)
  }

  /** Even a model that calls a tool on every step stops after the step budget. */
  lemma ToolLoopBounded(callsTool: nat -> bool)
    ensures StepsRun(callsTool, StepBudget, 1) <= 100
    ensures (forall k :: callsTool(k)) ==> StepsRun(callsTool, StepBudget, 1) == 100
  {
  }
}

=== FILE: config.dfy ===
/** The configuration store of src/lib/config.ts, with `~/.axe/config.json`
    replaced by an abstract file value. Configs have value semantics. */
module Config {
  import opened Results

  /** Provider name, model name and API keys by provider name. */
  datatype Config = Config(provider: string, model: string, keys: map<string, string>)

  const DefaultProvider := "google"
  const DefaultModel := "gemini-2.5-flash"

  /** DEFAULT_CONFIG. */
  const Default := Config(DefaultProvider, DefaultModel, map[])

  /** The top-level fields of a parsed config.json; an absent field is None. */
  datatype Stored = Stored(provider: Option<string>, model: Option<string>, keys: Option<map<string, string>>)

  /** The config file: missing, present but unreadable or not JSON, or parsed. */
  datatype ConfigFile = Missing | Unparsable | Json(stored: Stored)

  /** `{ ...base, ...over }`: every field present in `over` wins. */
  function Merge(base: Config, over: Stored): Config {
    Config(over.provider.GetOr(base.provider), over.model.GetOr(base.model), over.keys.GetOr(base.keys))
  }

  /** `loadConfig`: the defaults when there is no readable file, else the file's
      fields over the defaults. */
  function Load(f: ConfigFile): (c: Config)
    ensures !f.Json? ==> c == Default
    ensures f.Json? ==> && (f.stored.provider.Some? ==> c.provider == f.stored.provider.value)
                        && (f.stored.provider.None? ==> c.provider == DefaultProvider)
                        && (f.stored.model.Some? ==> c.model == f.stored.model.value)
                        && (f.stored.model.None? ==> c.model == DefaultModel)
                        && (f.stored.keys.Some? ==> c.keys == f.stored.keys.value)
                        && (f.stored.keys.None? ==> c.keys == map[])
  {
    match f
    case Json(stored) => Merge(Default, stored)
    case _ => Default
  }

  /** `saveConfig`: the file afterwards holds every field of `c`. */
  function Save(c: Config): (f: ConfigFile)
    ensures f.Json? && f.stored.provider.Some? && f.stored.model.Some? && f.stored.keys.Some?
  {
    Json(Stored(Some(c.provider), Some(c.model), Some(c.keys)))
  }

  /** Loading what was saved gives the saved config back. */
  lemma SaveLoad(c: Config)
    ensures Load(Save(c)) == c
  {
  }

  /** `getApiKey(provider)`: the stored key, or undefined. */
  function GetApiKey(f: ConfigFile, provider: string): (k: Option<string>)
    ensures k.Some? <==> provider in Load(f).keys
    ensures k.Some? ==> k.value == Load(f).keys[provider]
  {
    var keys := Load(f).keys;
    if provider in keys then Some(keys[provider]) else None
  }

  /** `setApiKey(provider, key)`: load, set one key, save. */
  function SetApiKey(f: ConfigFile, provider: string, key: string): (f': ConfigFile)
    ensures Load(f').provider == Load(f).provider && Load(f').model == Load(f).model
  {
    var c := Load(f);
    Save(c.(keys := c.keys[provider := key]))
  }

  /** After `setApiKey(p, k)`, `getApiKey(p)` is `k` and every other key is as before. */
  lemma SetApiKeyGet(f: ConfigFile, provider: string, key: string, other: string)
    ensures GetApiKey(SetApiKey(f, provider, key), provider) == Some(key)
    ensures other != provider ==> GetApiKey(SetApiKey(f, provider, key), other) == GetApiKey(f, other)
  {
  }

  /** `setProvider(provider, model)`: load, set both fields, save. A `None` model
      stands for `undefined`, which `JSON.stringify` leaves out of the file. */
  function SetProvider(f: ConfigFile, provider: string, model: Option<string>): (f': ConfigFile)
    ensures Load(f').provider == provider
    ensures Load(f').keys == Load(f).keys
    ensures model.Some? ==> Load(f').model == model.value
  {
    var c := Load(f);
    Json(Stored(Some(provider), model, Some(c.keys)))
  }

  /** Setting the provider with an `undefined` model makes the next load fall
      back to the default model. */
  lemma SetProviderUndefinedModel(f: ConfigFile, provider: string)
    ensures Load(SetProvider(f, provider, None)) == Config(provider, DefaultModel, Load(f).keys)
  {
  }

  /** `setProvider(p, m)` then loading yields exactly the old config with the
      provider and model replaced. */
  lemma SetProviderLoad(f: ConfigFile, provider: string, model: string)
    ensures Load(SetProvider(f, provider, Some(model))) == Load(f).(provider := provider, model := model)
  {
  }
}

=== FILE: controller.dfy ===
/** The App component of src/app.tsx as a state machine: the key handler for
    the picker views, command dispatch, and one streamed turn with its
    `finally` reset. Rendering is not modelled. */
module Controller {
  import opened Results
  import opened Text
  import Log
  import Config
  import Provider
  import Agent
  import InputArea

  datatype View = Chat | History | ProviderPick | ModelPick

  /** One key event as `useInput` reports it; a printable key arrives as `Char`. */
  datatype Key = Up | Down | Return | Escape | Char(input: string)

  /** A message held for display (the shape of a message row). */
  datatype Message = Message(id: int, sessionId: string, role: Log.Role, content: string, createdAt: int)

  /** A session as the directory-scoped session listings return it. */
  datatype SessionRow = SessionRow(id: string, path: string, messageCount: nat)

  /** The component's state hooks. */
  datatype State = State(
    messages: seq<Message>,
    streaming: string,
    thinking: Option<string>,
    isLoading: bool,
    error: Option<string>,
    view: View,
    currentDirSessions: seq<SessionRow>,
    otherDirSessions: seq<SessionRow>,
    selectedIdx: int,
    config: Config.Config)

  function FromRow(r: Log.Row): Message {
    Message(r.id, r.sessionId, r.role, r.content, r.createdAt)
  }

  function FromRows(rows: seq<Log.Row>): (ms: seq<Message>)
    ensures |ms| == |rows|
    ensures forall i :: 0 <= i < |rows| ==> ms[i] == FromRow(rows[i])
  {
    seq(|rows|, i requires 0 <= i < |rows| => FromRow(rows[i]))
  }

  /** The state after mounting: the last 1000 messages of this directory's
      session, or the load error. */
  function Init(db: Result<Log.Table, string>, process: Log.Process, file: Config.ConfigFile): (s: State)
    ensures s.view == Chat && !s.isLoading && s.selectedIdx == 0 && s.config == Config.Load(file)
    ensures db.Ok? ==> s.error == None && s.messages == FromRows(Log.Window(Log.OfSession(db.value.rows, process.sessionId), 1000))
    ensures db.Err? ==> s.messages == [] && s.error == Some("Failed to load database: " + db.error)
  {
    var s0 := State([], "", None, false, None, Chat, [], [], 0, Config.Load(file));
    match db
    case Ok(t) => s0.(messages := FromRows(Log.GetRecentMessages(t, process, 1000)))
    case Err(e) => s0.(error := Some("Failed to load database: " + e))
  }

  /** `PROVIDER_MODELS[config.provider] || []`. */
  function CurrentModels(c: Config.Config): seq<string> {
    Provider.ModelsOf(c.provider).GetOr([])
  }

  /** The sessions the history view lists, current directory first. */
  function AllSessions(s: State): seq<SessionRow> {
    s.currentDirSessions + s.otherDirSessions
  }

  /** The length of the list the current view navigates. */
  function ItemCount(s: State): nat {
    match s.view
    case History => |AllSessions(s)|
    case ProviderPick => |Provider.Providers()|
    case ModelPick => |CurrentModels(s.config)|
    case Chat => 0
  }

  /** `xs.indexOf(x)`: the first position of `x`, or -1. */
  function IndexOf(xs: seq<string>, x: string): (r: int)
    ensures -1 <= r < |xs|
    ensures r == -1 <==> x !in xs
    ensures r >= 0 ==> xs[r] == x && forall j :: 0 <= j < r ==> xs[j] != x
  {
    if xs == [] then -1
    else if xs[0] == x then 0
    else
      var r := IndexOf(xs[1..], x);
      assert forall j :: 1 <= j < |xs| ==> xs[j] == xs[1..][j - 1];
      if r == -1 then -1 else r + 1
  }

  /** Result of one key event: the next state and config file, or the error the
      handler throws. */
  datatype KeyOutcome = Handled(state: State, file: Config.ConfigFile) | Threw(message: string)

  /** Up/Down move the selection by one, saturating at the ends of a list of length `n`:
      Up is `Math.max(0, idx - 1)`, Down is `Math.min(n - 1, idx + 1)`. */
  function Move(key: Key, idx: int, n: int): (r: int)
    ensures key == Up ==> r >= 0 && r >= idx - 1 && (r == 0 || r == idx - 1)
    ensures key == Down ==> r <= n - 1 && r <= idx + 1 && (r == n - 1 || r == idx + 1)
    ensures key != Up && key != Down ==> r == idx
    ensures (key == Up || key == Down) && 0 <= idx < n ==> 0 <= r < n
  {
    match key
    case Up => if idx - 1 > 0 then idx - 1 else 0
    case Down => if n - 1 < idx + 1 then n - 1 else idx + 1
    case _ => idx
  }

  /** The `useInput` handler. Keys do nothing in the chat view; in a picker
      only the message list, the view, the selection and the config can change,
      only Enter in the provider or model view writes the config file, and the
      handler throws exactly on Enter in the provider view with no provider
      selected. The message text of that error depends on the JavaScript
      engine, so the model keeps only its kind. */
  function HandleKey(s: State, log: Log.Table, file: Config.ConfigFile, key: Key): (o: KeyOutcome)
    ensures s.view == Chat ==> o == Handled(s, file)
    ensures o.Threw? <==> s.view == ProviderPick && key == Return && !(0 <= s.selectedIdx < |Provider.Providers()|)
    ensures o.Handled? ==> o.state == s.(messages := o.state.messages, view := o.state.view,
                                          selectedIdx := o.state.selectedIdx, config := o.state.config)
    ensures o.Handled? && o.file != file ==> key == Return && (s.view == ProviderPick || s.view == ModelPick)
    ensures o.Handled? && o.state.messages != s.messages ==> key == Return && s.view == History
  {
    if s.view == Chat then Handled(s, file)
    else if key == Escape || key == Char("q") then Handled(s.(view := Chat), file)
    else if key == Up || key == Down then Handled(s.(selectedIdx := Move(key, s.selectedIdx, ItemCount(s))), file)
    else if key != Return then Handled(s, file)
    else
      var idx := s.selectedIdx;
      match s.view
      case History =>
        var all := AllSessions(s);
        if 0 <= idx < |all| then
          var rows := Log.GetSessionMessages(log, all[idx].id, 1000);
          Handled(s.(messages := FromRows(rows), view := Chat), file)
        else
          Handled(s, file)
      case ProviderPick =>
        var providers := Provider.Providers();
        if 0 <= idx < |providers| then
          var p := providers[idx];
          Provider.ModelsOfCatalogue(idx);
          Provider.CatalogueConsistent(file, None);
          var file' := Config.SetProvider(file, p, Some(Provider.ModelsOf(p).value[0]));
          Handled(s.(config := Config.Load(file'), view := Chat), file')
        else
          Threw("TypeError")
      case ModelPick =>
        var models := CurrentModels(s.config);
        var model := if 0 <= idx < |models| then Some(models[idx]) else None;
        var file' := Config.SetProvider(file, s.config.provider, model);
        Handled(s.(config := Config.Load(file'), view := Chat), file')
  }

  /** Up and Down saturate instead of wrapping, and keep an in-range selection in range. */
  lemma NavigationSaturates(s: State, log: Log.Table, file: Config.ConfigFile, key: Key)
    requires s.view != Chat && (key == Up || key == Down)
    ensures var o := HandleKey(s, log, file, key);
            && o == Handled(o.state, file)
            && o.state == s.(selectedIdx := o.state.selectedIdx)
            && (key == Up ==> o.state.selectedIdx == (if s.selectedIdx - 1 > 0 then s.selectedIdx - 1 else 0))
            && (key == Down ==> o.state.selectedIdx == (if ItemCount(s) - 1 < s.selectedIdx + 1 then ItemCount(s) - 1 else s.selectedIdx + 1))
            && (0 <= s.selectedIdx < ItemCount(s) ==> 0 <= o.state.selectedIdx < ItemCount(s))
  {
  }

  /** In any picker view, Escape or `q` returns to chat and changes nothing else. */
  lemma EscapeReturnsToChat(s: State, log: Log.Table, file: Config.ConfigFile, key: Key)
    requires s.view != Chat && (key == Escape || key == Char("q"))
    ensures HandleKey(s, log, file, key) == Handled(s.(view := Chat), file)
  {
  }

  /** Enter in the history view loads a session exactly when the selection names
      one; otherwise nothing changes. */
  lemma HistoryEnter(s: State, log: Log.Table, file: Config.ConfigFile)
    requires s.view == History
    ensures var o := HandleKey(s, log, file, Return);
            o.Handled? && o.file == file &&
            if 0 <= s.selectedIdx < |AllSessions(s)| then
              var id := AllSessions(s)[s.selectedIdx].id;
              && o.state.view == Chat
              && o.state.messages == FromRows(Log.Window(Log.OfSession(log.rows, id), 1000))
              && (forall m :: m in o.state.messages ==> m.sessionId == id)
            else o.state == s
  {
  }

  /** Enter in the provider view switches to the chosen provider and its first
      catalogue model, keeping the keys; a selection outside the list throws. */
  lemma ProviderEnter(s: State, log: Log.Table, file: Config.ConfigFile)
    requires s.view == ProviderPick
    ensures var o := HandleKey(s, log, file, Return);
            if 0 <= s.selectedIdx < |Provider.Catalogue| then
              o.Handled? && o.state.view == Chat
              && o.state.config.provider == Provider.Catalogue[s.selectedIdx].0
              && o.state.config.model == Provider.Catalogue[s.selectedIdx].1[0]
              && o.state.config.keys == Config.Load(file).keys
              && o.state.config == Config.Load(o.file)
            else o.Threw?
  {
    if 0 <= s.selectedIdx < |Provider.Catalogue| {
      Provider.ModelsOfCatalogue(s.selectedIdx);
    }
  }

  /** Enter in the model view keeps the provider and picks the selected model;
      with no model selected the file loses its model and the default is used. */
  lemma ModelEnter(s: State, log: Log.Table, file: Config.ConfigFile)
    requires s.view == ModelPick
    ensures var o := HandleKey(s, log, file, Return);
            && o.Handled? && o.state.view == Chat
            && o.state.config.provider == s.config.provider
            && o.state.config.keys == Config.Load(file).keys
            && o.state.config.model == (if 0 <= s.selectedIdx < |CurrentModels(s.config)|
                                        then CurrentModels(s.config)[s.selectedIdx] else Config.DefaultModel)
  {
  }

  // ---------------------------------------------------------------------------
  // handleInput

  /** One event of the agent's output stream. */
  datatype StreamEvent = TextChunk(content: string) | ThinkingNote(content: string)

  /** What the stream delivered: its events, then a normal end (None) or the
      message of the error it threw. */
  datatype StreamRun = StreamRun(events: seq<StreamEvent>, failure: Option<string>)

  /** The effects `handleInput` depends on: the two session listings, the agent
      stream for a prompt and history, the session id, and two clock readings
      (turn start and turn end). */
  datatype TurnEnv = TurnEnv(
    currentDirSessions: seq<SessionRow>,
    otherDirSessions: seq<SessionRow>,
    stream: (string, seq<Agent.AgentMessage>) -> StreamRun,
    sessionId: string,
    started: int,
    finished: int)

  /** The local commands, matched after lowercasing and trimming. */
  predicate IsCommand(cmd: string) {
    cmd == "/history" || cmd == "/provider" || cmd == "/model" || cmd == "/clear"
  }

  function CommandOf(input: string): string {
    Trim(ToLower(input))
  }

  /** The state once a turn has started (lines before the `try`). */
  function BeginTurn(s: State, input: string, env: TurnEnv): (b: State)
    ensures b.isLoading && b.error == None && b.streaming == "" && b.thinking == None
    ensures b.messages == s.messages + [Message(env.started, env.sessionId, Log.User, input, env.started)]
    ensures b == s.(messages := b.messages, isLoading := true, error := None, streaming := "", thinking := None)
  {
    var userMsg := Message(env.started, env.sessionId, Log.User, input, env.started);
    s.(isLoading := true, error := None, messages := s.messages + [userMsg], streaming := "", thinking := None)
  }

  /** The history handed to the agent: role and content of every message. */
  function AgentHistory(ms: seq<Message>): (h: seq<Agent.AgentMessage>)
    ensures |h| == |ms|
    ensures forall i :: 0 <= i < |ms| ==> h[i] == Agent.AgentMessage(ms[i].role, ms[i].content)
  {
    seq(|ms|, i requires 0 <= i < |ms| => Agent.AgentMessage(ms[i].role, ms[i].content))
  }

  /** One event of the `for await` loop: text extends the accumulator (and the
      streamed content), a thinking note replaces the current one. */
  function ApplyEvent(acc: string, s: State, e: StreamEvent): (string, State) {
    match e
    case TextChunk(c) => (acc + c, s.(streaming := acc + c))
    case ThinkingNote(c) => (acc, s.(thinking := Some(c)))
  }

  /** The `for await` loop over the whole stream: the accumulator only grows,
      and only the streamed text and the thinking note change. */
  function Consume(acc: string, s: State, events: seq<StreamEvent>): (r: (string, State))
    ensures |acc| <= |r.0| && r.0[..|acc|] == acc
    ensures r.1 == s.(streaming := r.1.streaming, thinking := r.1.thinking)
    decreases |events|
  {
    if events == [] then (acc, s)
    else
      var (acc', s') := ApplyEvent(acc, s, events[0]);
      Consume(acc', s', events[1..])
  }

  /** The concatenated text of the text events, in order. */
  function Texts(events: seq<StreamEvent>): string {
    if events == [] then ""
    else Texts(events[..|events| - 1]) + (match events[|events| - 1]
                                            case TextChunk(c) => c
                                            case ThinkingNote(_) => "")
  }

  /** The last thinking note among `events`, if any. */
  function LastNote(events: seq<StreamEvent>): Option<string> {
    if events == [] then None
    else match events[|events| - 1]
      case ThinkingNote(c) => Some(c)
      case TextChunk(_) => LastNote(events[..|events| - 1])
  }

  /** Folding the stream concatenates every text event in order and keeps the
      latest thinking note; nothing else in the state changes. */
  lemma {:induction false} ConsumeFold(acc: string, s: State, events: seq<StreamEvent>)
    ensures var (acc', s') := Consume(acc, s, events);
            && acc' == acc + Texts(events)
            && s'.thinking == (if LastNote(events).Some? then LastNote(events) else s.thinking)
            && s' == s.(streaming := s'.streaming, thinking := s'.thinking)
            && (s.streaming == acc ==> s'.streaming == acc')
    decreases |events|
  {
    if events != [] {
      var (a1, s1) := ApplyEvent(acc, s, events[0]);
      ConsumeFold(a1, s1, events[1..]);
      TextsCons(events[0], events[1..]);
      LastNoteCons(events[0], events[1..]);
      assert events == [events[0]] + events[1..];
    }
  }

  lemma {:induction false} TextsCons(e: StreamEvent, rest: seq<StreamEvent>)
    ensures Texts([e] + rest) == (match e case TextChunk(c) => c case ThinkingNote(_) => "") + Texts(rest)
    decreases |rest|
  {
    if rest != [] {
      var init := rest[..|rest| - 1];
      assert ([e] + rest)[..|rest|] == [e] + init;
      TextsCons(e, init);
    } else {
      assert ([e] + rest)[..0] == [];
    }
  }

  lemma {:induction false} LastNoteCons(e: StreamEvent, rest: seq<StreamEvent>)
    ensures LastNote([e] + rest) == if LastNote(rest).Some? then LastNote(rest)
                                    else match e case ThinkingNote(c) => Some(c) case TextChunk(_) => None
    decreases |rest|
  {
    if rest != [] {
      var init := rest[..|rest| - 1];
      assert ([e] + rest)[..|rest|] == [e] + init;
      LastNoteCons(e, init);
    } else {
      assert ([e] + rest)[..0] == [];
    }
  }

  /** After the loop: append the assistant message on success or record the
      error, then (the `finally`) leave the loading state. */
  function FinishTurn(acc: string, s: State, failure: Option<string>, env: TurnEnv): (f: State)
    ensures !f.isLoading && f.streaming == "" && f.thinking == None
    ensures failure.None? ==> f.messages == s.messages + [Message(env.finished + 1, env.sessionId, Log.Assistant, acc, env.finished)]
                              && f.error == s.error
    ensures failure.Some? ==> f.messages == s.messages && f.error == failure
  {
    var s' := match failure
      case None => s.(messages := s.messages + [Message(env.finished + 1, env.sessionId, Log.Assistant, acc, env.finished)])
      case Some(e) => s.(error := Some(e));
    s'.(isLoading := false, streaming := "", thinking := None)
  }

  /** `handleInput(input)`, run to completion. Input never changes the config;
      only a command changes the view, and `/history`, `/provider` and `/model`
      open their picker on the session list, the current provider and the
      current model (-1 when that is not listed). */
  function HandleInput(s: State, input: string, env: TurnEnv): (r: State)
    ensures r.config == s.config
    ensures r.view != s.view ==> IsCommand(CommandOf(input))
    ensures CommandOf(input) == "/history" ==>
              && r.view == History && r.selectedIdx == 0
              && AllSessions(r) == env.currentDirSessions + env.otherDirSessions
    ensures var ps := Provider.Providers();
            CommandOf(input) == "/provider" ==>
              && r.view == ProviderPick && -1 <= r.selectedIdx < |ps|
              && (r.selectedIdx == -1 <==> s.config.provider !in ps)
              && (r.selectedIdx >= 0 ==> ps[r.selectedIdx] == s.config.provider)
    ensures var ms := CurrentModels(s.config);
            CommandOf(input) == "/model" ==>
              && r.view == ModelPick && -1 <= r.selectedIdx < |ms|
              && (r.selectedIdx == -1 <==> s.config.model !in ms)
              && (r.selectedIdx >= 0 ==> ms[r.selectedIdx] == s.config.model)
    ensures !IsCommand(CommandOf(input)) ==> r == Turn(s, input, env)
  {
    var cmd := CommandOf(input);
    if cmd == "/history" then
      s.(currentDirSessions := env.currentDirSessions, otherDirSessions := env.otherDirSessions,
         selectedIdx := 0, view := History)
    else if cmd == "/provider" then
      s.(selectedIdx := IndexOf(Provider.Providers(), s.config.provider), view := ProviderPick)
    else if cmd == "/model" then
      s.(selectedIdx := IndexOf(CurrentModels(s.config), s.config.model), view := ModelPick)
    else if cmd == "/clear" then
      s.(messages := [])
    else Turn(s, input, env)
  }

  /** A prompt that is not a command: begin, fold the stream, finish. The turn
      ends idle with nothing streamed, in the same view and config, and its
      messages start with the prior ones followed by the user message. */
  function Turn(s: State, input: string, env: TurnEnv): (r: State)
    ensures !r.isLoading && r.streaming == "" && r.thinking == None
    ensures r.view == s.view && r.config == s.config && r.selectedIdx == s.selectedIdx
    ensures |r.messages| > |s.messages|
    ensures r.messages[..|s.messages| + 1] == s.messages + [Message(env.started, env.sessionId, Log.User, input, env.started)]
  {
    var b := BeginTurn(s, input, env);
    var run := env.stream(input, AgentHistory(b.messages));
    var (acc, c) := Consume("", b, run.events);
    FinishTurn(acc, c, run.failure, env)
  }

  /** Commands are handled locally: they never start a turn, and `/clear`
      empties the message list. */
  lemma CommandsStayLocal(s: State, input: string, env: TurnEnv)
    ensures var r := HandleInput(s, input, env);
            IsCommand(CommandOf(input)) ==>
            && r.isLoading == s.isLoading && r.error == s.error
            && r.streaming == s.streaming && r.thinking == s.thinking
            && (CommandOf(input) == "/clear" ==> r == s.(messages := []))
            && (CommandOf(input) != "/clear" ==> r.messages == s.messages)
  {
  }

  /** A submitted prompt ends with the prior messages, the user message, and on
      success an assistant message holding all the streamed text; on every path
      the loading state is left. */
  lemma TurnOutcome(s: State, input: string, env: TurnEnv)
    ensures var r := HandleInput(s, input, env);
            var userMsg := Message(env.started, env.sessionId, Log.User, input, env.started);
            var run := env.stream(input, AgentHistory(s.messages + [userMsg]));
            !IsCommand(CommandOf(input)) ==>
            && !r.isLoading && r.streaming == "" && r.thinking == None
            && r.view == s.view && r.config == s.config && r.selectedIdx == s.selectedIdx
            && (run.failure.None? ==>
                  r.messages == s.messages + [userMsg, Message(env.finished + 1, env.sessionId, Log.Assistant, Texts(run.events), env.finished)]
                  && r.error == None)
            && (run.failure.Some? ==> r.messages == s.messages + [userMsg] && r.error == run.failure)
  {
    if !IsCommand(CommandOf(input)) {
      assert HandleInput(s, input, env) == Turn(s, input, env);
      TurnFacts(s, input, env);
    }
  }

  lemma TurnFacts(s: State, input: string, env: TurnEnv)
    ensures var r := Turn(s, input, env);
            var userMsg := Message(env.started, env.sessionId, Log.User, input, env.started);
            var run := env.stream(input, AgentHistory(s.messages + [userMsg]));
            && !r.isLoading && r.streaming == "" && r.thinking == None
            && r.view == s.view && r.config == s.config && r.selectedIdx == s.selectedIdx
            && (run.failure.None? ==>
                  r.messages == s.messages + [userMsg, Message(env.finished + 1, env.sessionId, Log.Assistant, Texts(run.events), env.finished)]
                  && r.error == None)
            && (run.failure.Some? ==> r.messages == s.messages + [userMsg] && r.error == run.failure)
  {
    var b := BeginTurn(s, input, env);
    var run := env.stream(input, AgentHistory(b.messages));
    var (acc, c) := Consume("", b, run.events);
    ConsumeFold("", b, run.events);
    assert acc == Texts(run.events);
    assert c.messages == b.messages && c.error == None;
  }

  /** While a turn is in flight (any prefix of its events consumed) the input
      field rejects submissions and keeps its text. */
  lemma NoSubmitDuringTurn(s: State, input: string, env: TurnEnv, events: seq<StreamEvent>, query: string, value: string)
    ensures var mid := Consume("", BeginTurn(s, input, env), events).1;
            mid.isLoading && InputArea.HandleSubmit(mid.isLoading, query, value) == InputArea.Submission(None, query)
  {
    ConsumeFold("", BeginTurn(s, input, env), events);
  }
}

=== FILE: ignore.dfy ===
/** The ignore rules and project file listing of src/lib/filesystem.ts. The
    directory tree is an abstract value standing for what `readdirSync` and
    `statSync` would report. */
module Ignore {
  import opened Text

  /** Names ignored wherever they occur in a path. */
  const DefaultIgnore: seq<string> := [
    "node_modules", ".git", "dist", "build", "coverage", ".next", ".cache",
    ".vscode", ".idea", ".DS_Store", "bun.lock", "package-lock.json",
    "yarn.lock", "pnpm-lock.yaml"
  ]

  /** What reading `<dir>/.gitignore` yields. */
  datatype GitIgnoreFile = Absent | Unreadable | Content(text: string)

  /** A line kept as a pattern: trimmed, non-empty and not a `#` comment. */
  predicate IsPattern(line: string) {
    line != [] && line[0] != '#' && IsTrimmed(line)
  }

  /** Whether `line` survives the filter once trimmed. */
  predicate Keep(line: string) {
    var t := Trim(line); t != [] && t[0] != '#'
  }

  /** Trims every line and keeps the non-empty, non-comment ones, in order. */
  function PatternLines(lines: seq<string>): (r: seq<string>)
    ensures forall i :: 0 <= i < |r| ==> IsPattern(r[i])
  {
    if lines == [] then []
    else
      var t := Trim(lines[0]);
      if t != [] && t[0] != '#' then [t] + PatternLines(lines[1..]) else PatternLines(lines[1..])
  }

  /** Some line of `lines` trims to `x` and survives the filter. */
  predicate FromLine(lines: seq<string>, x: string) {
    exists i :: 0 <= i < |lines| && Keep(lines[i]) && Trim(lines[i]) == x
  }

  /** A pattern is kept exactly when some line trims to it and survives the filter. */
  lemma {:induction false} PatternLinesMembers(lines: seq<string>, x: string)
    ensures x in PatternLines(lines) <==> FromLine(lines, x)
  {
    if lines != [] {
      PatternLinesMembers(lines[1..], x);
      if exists i :: 0 <= i < |lines| && Keep(lines[i]) && Trim(lines[i]) == x {
        var i :| 0 <= i < |lines| && Keep(lines[i]) && Trim(lines[i]) == x;
        if i > 0 {
          assert lines[1..][i - 1] == lines[i];
        }
      }
      if exists i :: 0 <= i < |lines[1..]| && Keep(lines[1..][i]) && Trim(lines[1..][i]) == x {
        var i :| 0 <= i < |lines[1..]| && Keep(lines[1..][i]) && Trim(lines[1..][i]) == x;
        assert lines[i + 1] == lines[1..][i];
      }
    }
  }

  /** `parseGitIgnore`: a missing or unreadable file gives no patterns. */
  function ParseGitIgnore(f: GitIgnoreFile): (r: seq<string>)
    ensures forall i :: 0 <= i < |r| ==> IsPattern(r[i])
    ensures !f.Content? ==> r == []
  {
    match f
    case Content(text) => PatternLines(Split(text, '\n'))
    case _ => []
  }

  /** A pattern is read from a file exactly when one of its lines trims to it
      and is neither empty nor a comment. */
  lemma ParseGitIgnoreMembers(text: string, x: string)
    ensures x in ParseGitIgnore(Content(text)) <==> FromLine(Split(text, '\n'), x)
  {
    PatternLinesMembers(Split(text, '\n'), x);
  }

  /** `path.split("/").pop() || ""`: the text after the last `/`. */
  function FileName(path: string): (r: string)
    ensures |r| <= |path| && r == path[|path| - |r|..]
    ensures '/' !in r
    ensures |r| == |path| || path[|path| - |r| - 1] == '/'
  {
    if path == [] || path[|path| - 1] == '/' then []
    else
      var init := path[..|path| - 1];
      var r := FileName(init);
      assert init[|init| - |r|..] == path[|init| - |r|..|init|];
      assert path[|path| - |r| - 1..] == r + [path[|path| - 1]];
      r + [path[|path| - 1]]
  }

  /** What one gitignore pattern ignores. */
  predicate PatternMatches(pattern: string, path: string) {
    if EndsWith(pattern, "/") then Contains(path, pattern[..|pattern| - 1])
    else if StartsWith(pattern, "*") then EndsWith(FileName(path), pattern[1..])
    else Contains(path, pattern)
  }

  /** Some default name occurs in the path. */
  predicate DefaultIgnored(path: string) {
    exists i :: 0 <= i < |DefaultIgnore| && Contains(path, DefaultIgnore[i])
  }

  /** The pattern loop of `isIgnored`, returning at the first match. */
  function AnyPatternMatches(path: string, patterns: seq<string>): (b: bool)
    ensures b <==> exists i :: 0 <= i < |patterns| && PatternMatches(patterns[i], path)
  {
    if patterns == [] then false
    else if PatternMatches(patterns[0], path) then true
    else
      var b := AnyPatternMatches(path, patterns[1..]);
      assert b ==> exists i :: 0 <= i < |patterns| && PatternMatches(patterns[i], path) by {
        if b {
          var i :| 0 <= i < |patterns[1..]| && PatternMatches(patterns[1..][i], path);
          assert patterns[i + 1] == patterns[1..][i];
        }
      }
      assert (exists i :: 0 <= i < |patterns| && PatternMatches(patterns[i], path)) ==> b by {
        if exists i :: 0 <= i < |patterns| && PatternMatches(patterns[i], path) {
          var i :| 0 <= i < |patterns| && PatternMatches(patterns[i], path);
          assert i != 0;
          assert patterns[1..][i - 1] == patterns[i];
        }
      }
      b
  }

  /** `isIgnored(path, patterns)`. */
  function IsIgnored(path: string, patterns: seq<string>): (b: bool)
    ensures b <==> DefaultIgnored(path) || exists i :: 0 <= i < |patterns| && PatternMatches(patterns[i], path)
  {
    var d := exists i :: 0 <= i < |DefaultIgnore| && Contains(path, DefaultIgnore[i]);
    d || AnyPatternMatches(path, patterns)
  }

  /** A default name anywhere in the path ignores it, whatever the patterns. */
  lemma DefaultAlwaysIgnored(path: string, patterns: seq<string>, i: int)
    requires 0 <= i < |DefaultIgnore| && Contains(path, DefaultIgnore[i])
    ensures IsIgnored(path, patterns)
  {
  }

  /** A directory pattern `d/` ignores every path containing `d`. */
  lemma DirectoryPatternIgnores(path: string, patterns: seq<string>, i: int)
    requires 0 <= i < |patterns| && EndsWith(patterns[i], "/")
    requires Contains(path, patterns[i][..|patterns[i]| - 1])
    ensures IsIgnored(path, patterns)
  {
    assert PatternMatches(patterns[i], path);
  }

  /** A pattern `*ext` ignores every path whose last segment ends with `ext`. */
  lemma SuffixPatternIgnores(path: string, patterns: seq<string>, i: int)
    requires 0 <= i < |patterns| && !EndsWith(patterns[i], "/") && StartsWith(patterns[i], "*")
    ensures EndsWith(FileName(path), patterns[i][1..]) ==> IsIgnored(path, patterns)
  {
    if EndsWith(FileName(path), patterns[i][1..]) {
      assert PatternMatches(patterns[i], path);
    }
  }

  /** Any other pattern ignores the paths containing it. */
  lemma PlainPatternIgnores(path: string, patterns: seq<string>, i: int)
    requires 0 <= i < |patterns| && !EndsWith(patterns[i], "/") && !StartsWith(patterns[i], "*")
    requires Contains(path, patterns[i])
    ensures IsIgnored(path, patterns)
  {
    assert PatternMatches(patterns[i], path);
  }

  /** Adding patterns, before or after, never un-ignores a path. */
  lemma IgnoreMonotonic(path: string, patterns: seq<string>, extra: seq<string>)
    requires IsIgnored(path, patterns)
    ensures IsIgnored(path, patterns + extra)
    ensures IsIgnored(path, extra + patterns)
  {
    if !DefaultIgnored(path) {
      var i :| 0 <= i < |patterns| && PatternMatches(patterns[i], path);
      assert (patterns + extra)[i] == patterns[i];
      assert (extra + patterns)[|extra| + i] == patterns[i];
    }
  }

  // ---------------------------------------------------------------------------
  // getAllFiles

  /** A directory entry as `statSync` sees it. `File` is any entry that is not a
      directory: a regular file, but also a FIFO, a socket or a device. `Unstattable` is an entry whose
      `statSync` throws (a dangling link, say). A directory whose `readdirSync`
      throws has `readable == false`. */
  datatype Entry =
    | File(name: string)
    | Dir(name: string, readable: bool, children: seq<Entry>)
    | Unstattable(name: string)

  /** `relative(dir, join(currentDir, entry))` for an entry name without `/`. */
  function ChildPath(prefix: string, name: string): string {
    if prefix == [] then name else prefix + "/" + name
  }

  /** Every path of a non-directory entry in the tree, ignoring nothing; the
      contents of a directory that cannot be listed do not appear. */
  function FilePaths(prefix: string, entries: seq<Entry>): seq<string>
    decreases entries
  {
    if entries == [] then []
    else
      var e := entries[0];
      var rel := ChildPath(prefix, e.name);
      var here := match e
        case File(_) => [rel]
        case Dir(_, readable, children) => if readable then FilePaths(rel, children) else []
        case Unstattable(_) => [];
      here + FilePaths(prefix, entries[1..])
  }

  /** No `/`-prefix of `path` (an enclosing directory) is ignored. */
  predicate Unpruned(path: string, patterns: seq<string>) {
    forall k :: 0 < k < |path| && path[k] == '/' ==> !IsIgnored(path[..k], patterns)
  }

  /** Entry names are non-empty and contain no `/`, as `readdirSync` reports them. */
  predicate WellNamed(entries: seq<Entry>)
    decreases entries
  {
    forall i :: 0 <= i < |entries| ==>
      && entries[i].name != [] && '/' !in entries[i].name
      && (entries[i].Dir? ==> WellNamed(entries[i].children))
  }

  /** The inner `walk` over one directory's entries: ignored entries are skipped,
      directories are walked, files are collected, and an entry whose `stat`
      throws ends the listing of that directory (the `catch` around the loop). */
  function Walk(prefix: string, entries: seq<Entry>, patterns: seq<string>): (r: seq<string>)
    requires prefix == [] || (!IsIgnored(prefix, patterns) && Unpruned(prefix, patterns))
    requires WellNamed(entries)
    ensures forall p :: p in r ==> !IsIgnored(p, patterns) && Unpruned(p, patterns)
    ensures forall p :: p in r ==> p in FilePaths(prefix, entries)
    decreases entries
  {
    if entries == [] then []
    else
      var e := entries[0];
      var rel := ChildPath(prefix, e.name);
      assert WellNamed(entries[1..]) by {
        forall i | 0 <= i < |entries[1..]| ensures entries[1..][i] == entries[i + 1] { }
      }
      if IsIgnored(rel, patterns) then
        Walk(prefix, entries[1..], patterns)
      else
        ChildUnpruned(prefix, e.name, patterns);
        match e
        case Unstattable(_) => []
        case File(_) =>
          [rel] + Walk(prefix, entries[1..], patterns)
        case Dir(_, readable, children) =>
          var inner := if readable then Walk(rel, children, patterns) else [];
          inner + Walk(prefix, entries[1..], patterns)
  }

  /** `getAllFiles()`: the walk of the root with the root's `.gitignore` patterns;
      an unreadable root lists nothing. */
  function GetAllFiles(rootReadable: bool, entries: seq<Entry>, gitignore: GitIgnoreFile): (r: seq<string>)
    requires WellNamed(entries)
    ensures forall p :: p in r ==> !IsIgnored(p, ParseGitIgnore(gitignore))
    ensures forall p :: p in r ==> Unpruned(p, ParseGitIgnore(gitignore))
    ensures forall p :: p in r ==> p in FilePaths("", entries)
  {
    if rootReadable then Walk("", entries, ParseGitIgnore(gitignore)) else []
  }

  /** No entry of the tree makes `statSync` throw. */
  predicate Stattable(entries: seq<Entry>)
    decreases entries
  {
    forall i :: 0 <= i < |entries| ==>
      && !entries[i].Unstattable?
      && (entries[i].Dir? ==> Stattable(entries[i].children))
  }

  /** Every file path below a non-root directory starts with that directory and a `/`. */
  lemma {:induction false} FilePathsBelow(prefix: string, entries: seq<Entry>, p: string)
    requires WellNamed(entries)
    ensures p in FilePaths(prefix, entries) && prefix != [] ==>
            |p| > |prefix| && p[..|prefix|] == prefix && p[|prefix|] == '/'
    decreases entries
  {
    if entries != [] && p in FilePaths(prefix, entries) && prefix != [] {
      var e := entries[0];
      var rel := ChildPath(prefix, e.name);
      assert WellNamed(entries[1..]) by {
        forall i | 0 <= i < |entries[1..]| ensures entries[1..][i] == entries[i + 1] { }
      }
      if p in FilePaths(prefix, entries[1..]) {
        FilePathsBelow(prefix, entries[1..], p);
      } else if e.File? {
        assert p == rel;
      } else if e.Dir? && e.readable {
        assert p in FilePaths(rel, e.children);
        FilePathsBelow(rel, e.children, p);
        assert p[..|prefix|] == rel[..|prefix|];
      }
    }
  }

  /** With every entry stattable, the walk lists exactly the kept files of the tree:
      the non-directory entries that are neither ignored, nor below an ignored
      directory, nor below a directory that cannot be listed. */
  lemma {:induction false} WalkExact(prefix: string, entries: seq<Entry>, patterns: seq<string>, p: string)
    requires prefix == [] || (!IsIgnored(prefix, patterns) && Unpruned(prefix, patterns))
    requires WellNamed(entries) && Stattable(entries)
    ensures p in Walk(prefix, entries, patterns) <==>
            p in FilePaths(prefix, entries) && !IsIgnored(p, patterns) && Unpruned(p, patterns)
    decreases entries
  {
    if entries != [] && p in FilePaths(prefix, entries) && !IsIgnored(p, patterns) && Unpruned(p, patterns) {
      var e := entries[0];
      var rel := ChildPath(prefix, e.name);
      var rest := entries[1..];
      assert WellNamed(rest) && Stattable(rest) by {
        forall i | 0 <= i < |rest| ensures rest[i] == entries[i + 1] { }
      }
      assert !e.Unstattable?;
      ChildUnpruned(prefix, e.name, patterns);
      if p in FilePaths(prefix, rest) {
        WalkExact(prefix, rest, patterns, p);
      } else if e.File? {
        assert p == rel;
      } else {
        assert e.readable && p in FilePaths(rel, e.children);
        FilePathsBelow(rel, e.children, p);
        assert !IsIgnored(rel, patterns) by {
          assert p[..|rel|] == rel;
        }
        WalkExact(rel, e.children, patterns, p);
      }
    }
  }

  /** `getAllFiles()` of a readable root whose entries all stat lists exactly its kept
      files, in the sense of `WalkExact`. */
  lemma GetAllFilesExact(entries: seq<Entry>, gitignore: GitIgnoreFile, p: string)
    requires WellNamed(entries) && Stattable(entries)
    ensures var patterns := ParseGitIgnore(gitignore);
            p in GetAllFiles(true, entries, gitignore) <==>
            p in FilePaths("", entries) && !IsIgnored(p, patterns) && Unpruned(p, patterns)
  {
    WalkExact("", entries, ParseGitIgnore(gitignore), p);
  }

  /** The path of an entry below a kept directory has no ignored ancestor. */
  lemma ChildUnpruned(prefix: string, name: string, patterns: seq<string>)
    requires prefix == [] || (!IsIgnored(prefix, patterns) && Unpruned(prefix, patterns))
    requires '/' !in name
    ensures Unpruned(ChildPath(prefix, name), patterns)
  {
    var p := ChildPath(prefix, name);
    forall k | 0 < k < |p| && p[k] == '/' ensures !IsIgnored(p[..k], patterns) {
      if prefix != [] && k < |prefix| {
        assert p[..k] == prefix[..k];
      } else if prefix != [] && k == |prefix| {
        assert p[..k] == prefix;
      }
    }
  }
}

=== FILE: input.dfy ===
/** The chat input field of src/ui/input-area.tsx. */
module InputArea {
  import opened Results
  import opened Text

  /** What one Enter in the field does: the value handed to `onSubmit`, if any,
      and the field's text afterwards. */
  datatype Submission = Submission(forwarded: Option<string>, query: string)

  /** `handleSubmit(value)` while the field holds `query`. */
  function HandleSubmit(isLoading: bool, query: string, value: string): (r: Submission)
    ensures r.forwarded.Some? <==> !isLoading && !AllSpace(value)
    ensures r.forwarded.Some? ==> r.forwarded.value == value && r.query == ""
    ensures r.forwarded.None? ==> r.query == query
  {
    if isLoading || Trim(value) == "" then Submission(None, query)
    else Submission(Some(value), "")
  }
}

=== FILE: log.dfy ===
/** The SQLite message log of src/lib/db.ts, with the table replaced by an
    in-memory sequence of rows kept in insertion (storage) order. */
module Log {
  import opened Results

  datatype Role = User | Assistant | System

  /** One row of the `messages` table. `createdAt` stands for the
      CURRENT_TIMESTAMP default, whose text form orders chronologically. */
  datatype Row = Row(id: nat, sessionId: string, sessionPath: string, role: Role, content: string, createdAt: int)

  /** The `messages` table: its rows in storage order and the AUTOINCREMENT
      counter (the largest id ever handed out). */
  datatype Table = Table(rows: seq<Row>, lastId: nat)

  /** The database file: the table if it has been created, and whether the
      `idx_session` index exists. */
  datatype Storage = Storage(table: Option<Table>, sessionIndex: bool)

  const EmptyTable := Table([], 0)

  /** The identity the process writes under: SESSION_ID (the first 16 hex
      characters of a hash of the working directory) and the working directory. */
  datatype Process = Process(sessionId: string, cwd: string)

  /** Ids are positive, strictly increasing in storage order and never above the counter. */
  predicate Valid(t: Table) {
    && (forall i, j :: 0 <= i < j < |t.rows| ==> t.rows[i].id < t.rows[j].id)
    && (forall i :: 0 <= i < |t.rows| ==> 0 < t.rows[i].id <= t.lastId)
  }

  /** CREATE TABLE IF NOT EXISTS / CREATE INDEX IF NOT EXISTS run at start-up. */
  function InitSchema(st: Storage): (r: Storage)
    ensures r.table.Some? && r.sessionIndex
    ensures st.table.Some? ==> r.table == st.table
    ensures st.table.None? ==> r.table == Some(EmptyTable) && Valid(r.table.value)
  {
    Storage(Some(st.table.GetOr(EmptyTable)), true)
  }

  /** Running the schema statements again on an initialised database changes nothing. */
  lemma InitSchemaIdempotent(st: Storage)
    ensures InitSchema(InitSchema(st)) == InitSchema(st)
  {
  }

  /** `saveMessage`: one INSERT tagged with the process's session id and directory. */
  function SaveMessage(t: Table, p: Process, role: Role, content: string, now: int): (r: Table)
    ensures |r.rows| == |t.rows| + 1 && r.rows[..|t.rows|] == t.rows
    ensures var row := r.rows[|t.rows|];
            row.sessionId == p.sessionId && row.sessionPath == p.cwd
            && row.role == role && row.content == content && row.createdAt == now
    ensures Valid(t) ==> Valid(r) && forall i :: 0 <= i < |t.rows| ==> t.rows[i].id < r.rows[|t.rows|].id
  {
    var id := t.lastId + 1;
    Table(t.rows + [Row(id, p.sessionId, p.cwd, role, content, now)], id)
  }

  /** The rows of session `s`, in storage order (WHERE session_id = s). */
  function OfSession(rows: seq<Row>, s: string): (r: seq<Row>)
    ensures |r| <= |rows|
    ensures forall i :: 0 <= i < |r| ==> r[i].sessionId == s && r[i] in rows
  {
    if rows == [] then []
    else
      var init := OfSession(rows[..|rows| - 1], s);
      var last := rows[|rows| - 1];
      if last.sessionId == s then init + [last] else init
  }

  /** The last `limit` elements of `xs`; a negative limit means no limit, as in SQLite. */
  function Window<T>(xs: seq<T>, limit: int): seq<T> {
    if limit < 0 || limit >= |xs| then xs else xs[|xs| - limit..]
  }

  /** ORDER BY id DESC LIMIT `limit` over the rows of session `s`: a scan from
      the newest row backwards that stops after `limit` matches. */
  function NewestFirst(rows: seq<Row>, s: string, limit: int): (r: seq<Row>)
    ensures forall i :: 0 <= i < |r| ==> r[i].sessionId == s
    ensures 0 <= limit ==> |r| <= limit
  {
    if rows == [] || limit == 0 then []
    else
      var last := rows[|rows| - 1];
      if last.sessionId == s then [last] + NewestFirst(rows[..|rows| - 1], s, limit - 1)
      else NewestFirst(rows[..|rows| - 1], s, limit)
  }

  function Reverse<T>(xs: seq<T>): (r: seq<T>)
    ensures |r| == |xs|
    ensures forall i :: 0 <= i < |xs| ==> r[i] == xs[|xs| - 1 - i]
  {
    if xs == [] then [] else Reverse(xs[1..]) + [xs[0]]
  }

  /** The descending scan, reversed, is the window of the session's rows. */
  lemma {:induction false} NewestFirstIsWindow(rows: seq<Row>, s: string, limit: int)
    ensures Reverse(NewestFirst(rows, s, limit)) == Window(OfSession(rows, s), limit)
  {
    if rows == [] || limit == 0 {
    } else {
      var init := rows[..|rows| - 1];
      var last := rows[|rows| - 1];
      if last.sessionId == s {
        NewestFirstIsWindow(init, s, limit - 1);
        var a := NewestFirst(init, s, limit - 1);
        assert Reverse([last] + a) == Reverse(a) + [last] by {
          ReverseCons(last, a);
        }
      } else {
        NewestFirstIsWindow(init, s, limit);
      }
    }
  }

  lemma ReverseCons<T>(x: T, xs: seq<T>)
    ensures Reverse([x] + xs) == Reverse(xs) + [x]
  {
    assert ([x] + xs)[1..] == xs;
  }

  /** In a valid table, the storage order is the id order, so the backward scan
      is exactly ORDER BY id DESC. */
  lemma {:induction false} NewestFirstDescending(t: Table, s: string, limit: int)
    ensures Valid(t) ==> Descending(NewestFirst(t.rows, s, limit))
    decreases |t.rows|
  {
    var rows := t.rows;
    if Valid(t) && rows != [] && limit != 0 {
      var init := rows[..|rows| - 1];
      var last := rows[|rows| - 1];
      var t' := Table(init, t.lastId);
      assert Valid(t');
      if last.sessionId == s {
        NewestFirstDescending(t', s, limit - 1);
        NewestFirstFrom(init, s, limit - 1);
        var rest := NewestFirst(init, s, limit - 1);
        forall x | x in rest ensures x.id < last.id {
          var k :| 0 <= k < |init| && init[k] == x;
          assert rows[k] == x;
        }
        DescendingCons(last, rest);
      } else {
        NewestFirstDescending(t', s, limit);
      }
    }
  }

  predicate Descending(r: seq<Row>) {
    forall i, j :: 0 <= i < j < |r| ==> r[i].id > r[j].id
  }

  lemma DescendingCons(x: Row, rest: seq<Row>)
    requires Descending(rest)
    requires forall y :: y in rest ==> y.id < x.id
    ensures Descending([x] + rest)
  {
    var r := [x] + rest;
    forall i, j | 0 <= i < j < |r| ensures r[i].id > r[j].id {
      assert r[j] == rest[j - 1];
      if i > 0 {
        assert r[i] == rest[i - 1];
      }
    }
  }

  /** Every row the scan returns is a row of the table. */
  lemma {:induction false} NewestFirstFrom(rows: seq<Row>, s: string, limit: int)
    ensures forall x :: x in NewestFirst(rows, s, limit) ==> x in rows
  {
    if rows != [] && limit != 0 {
      var init := rows[..|rows| - 1];
      if rows[|rows| - 1].sessionId == s {
        NewestFirstFrom(init, s, limit - 1);
      } else {
        NewestFirstFrom(init, s, limit);
      }
    }
  }

  /** `getSessionMessages(sessionId, limit)`: the last `limit` rows of that
      session, oldest first, in ascending id order. */
  function GetSessionMessages(t: Table, sessionId: string, limit: int := 50): (r: seq<Row>)
    ensures r == Window(OfSession(t.rows, sessionId), limit)
    ensures 0 <= limit ==> |r| == if limit < |OfSession(t.rows, sessionId)| then limit else |OfSession(t.rows, sessionId)|
    ensures forall i :: 0 <= i < |r| ==> r[i].sessionId == sessionId
    ensures Valid(t) ==> forall i, j :: 0 <= i < j < |r| ==> r[i].id < r[j].id
  {
    NewestFirstIsWindow(t.rows, sessionId, limit);
    NewestFirstDescending(t, sessionId, limit);
    Reverse(NewestFirst(t.rows, sessionId, limit))
  }

  /** `getRecentMessages(limit)`: the same window over the process's own session. */
  function GetRecentMessages(t: Table, p: Process, limit: int := 50): (r: seq<Row>)
    ensures r == Window(OfSession(t.rows, p.sessionId), limit)
    ensures forall i :: 0 <= i < |r| ==> r[i].sessionId == p.sessionId
    ensures Valid(t) ==> forall i, j :: 0 <= i < j < |r| ==> r[i].id < r[j].id
  {
    NewestFirstIsWindow(t.rows, p.sessionId, limit);
    NewestFirstDescending(t, p.sessionId, limit);
    Reverse(NewestFirst(t.rows, p.sessionId, limit))
  }

  /** Reading the process's own session through either query gives the same rows. */
  lemma RecentIsOwnSession(t: Table, p: Process, limit: int)
    ensures GetRecentMessages(t, p, limit) == GetSessionMessages(t, p.sessionId, limit)
  {
  }

  /** A saved message is the newest row of its session's window. */
  lemma {:induction false} SavedMessageIsRecent(t: Table, p: Process, role: Role, content: string, now: int, limit: int)
    requires limit != 0
    ensures var r := GetRecentMessages(SaveMessage(t, p, role, content, now), p, limit);
            |r| > 0 && r[|r| - 1].content == content && r[|r| - 1].role == role
  {
    var t' := SaveMessage(t, p, role, content, now);
    assert t'.rows[..|t'.rows| - 1] == t.rows;
    var w := OfSession(t'.rows, p.sessionId);
    assert w == OfSession(t.rows, p.sessionId) + [t'.rows[|t.rows|]];
  }

  // ---------------------------------------------------------------------------
  // getAllSessions: GROUP BY session_id, COUNT(*), MAX(created_at), ORDER BY it DESC

  /** One result row of `getAllSessions`. */
  datatype SessionSummary = SessionSummary(sessionId: string, sessionPath: string, messageCount: nat, lastMessage: int)

  /** The distinct session ids of `rows`, in order of first appearance. */
  function SessionIds(rows: seq<Row>): (ids: seq<string>)
    ensures forall i, j :: 0 <= i < j < |ids| ==> ids[i] != ids[j]
    ensures forall s :: s in ids <==> exists k :: 0 <= k < |rows| && rows[k].sessionId == s
  {
    if rows == [] then []
    else
      var init := SessionIds(rows[..|rows| - 1]);
      var s := rows[|rows| - 1].sessionId;
      assert forall k :: 0 <= k < |rows| - 1 ==> rows[..|rows| - 1][k] == rows[k];
      if s in init then init else init + [s]
  }

  /** A row holding the greatest `createdAt`. SQLite takes the bare `session_path`
      column from a row that holds the MAX, in practice the first such row; on a
      tie this model takes the last one instead. Both rows belong to one session,
      so the path is the same either way. */
  function Peak(rows: seq<Row>): (p: Row)
    requires rows != []
    ensures p in rows
    ensures forall k :: 0 <= k < |rows| ==> rows[k].createdAt <= p.createdAt
  {
    if |rows| == 1 then rows[0]
    else
      var p := Peak(rows[..|rows| - 1]);
      assert forall k :: 0 <= k < |rows| - 1 ==> rows[..|rows| - 1][k] == rows[k];
      if rows[|rows| - 1].createdAt >= p.createdAt then rows[|rows| - 1] else p
  }

  /** Every session id that occurs has at least one row. */
  lemma OfSessionNonEmpty(rows: seq<Row>, s: string, k: int)
    requires 0 <= k < |rows| && rows[k].sessionId == s
    ensures OfSession(rows, s) != []
    decreases |rows|
  {
    if k < |rows| - 1 {
      OfSessionNonEmpty(rows[..|rows| - 1], s, k);
    }
  }

  /** The summary row of one session. */
  function Summarise(rows: seq<Row>, s: string): SessionSummary
    requires s in SessionIds(rows)
  {
    var k :| 0 <= k < |rows| && rows[k].sessionId == s;
    OfSessionNonEmpty(rows, s, k);
    var group := OfSession(rows, s);
    var p := Peak(group);
    SessionSummary(s, p.sessionPath, |group|, p.createdAt)
  }

  function SummariseAll(rows: seq<Row>, ids: seq<string>): (r: seq<SessionSummary>)
    requires forall i :: 0 <= i < |ids| ==> ids[i] in SessionIds(rows)
    ensures |r| == |ids|
    ensures forall i :: 0 <= i < |ids| ==> r[i] == Summarise(rows, ids[i])
  {
    if ids == [] then [] else [Summarise(rows, ids[0])] + SummariseAll(rows, ids[1..])
  }

  predicate SortedByLastDesc(xs: seq<SessionSummary>) {
    forall i, j :: 0 <= i < j < |xs| ==> xs[i].lastMessage >= xs[j].lastMessage
  }

  predicate DistinctIds(xs: seq<SessionSummary>) {
    forall i, j :: 0 <= i < j < |xs| ==> xs[i].sessionId != xs[j].sessionId
  }

  /** Places `x` before the first entry that is not newer than it. */
  function Insert(x: SessionSummary, xs: seq<SessionSummary>): (r: seq<SessionSummary>)
    requires SortedByLastDesc(xs)
    ensures SortedByLastDesc(r)
    ensures multiset(r) == multiset(xs) + multiset{x}
  {
    if xs == [] || x.lastMessage >= xs[0].lastMessage then
      SortedCons(x, xs);
      [x] + xs
    else
      var rest := Insert(x, xs[1..]);
      assert xs == [xs[0]] + xs[1..];
      NotNewerThanHead(x, xs, rest);
      SortedCons(xs[0], rest);
      [xs[0]] + rest
  }

  lemma SortedCons(x: SessionSummary, xs: seq<SessionSummary>)
    requires SortedByLastDesc(xs)
    requires forall y :: y in xs ==> y.lastMessage <= x.lastMessage
    ensures SortedByLastDesc([x] + xs)
  {
    forall i, j | 0 <= i < j < |[x] + xs|
      ensures ([x] + xs)[i].lastMessage >= ([x] + xs)[j].lastMessage
    {
      assert ([x] + xs)[j] == xs[j - 1];
      if i > 0 { assert ([x] + xs)[i] == xs[i - 1]; }
    }
  }

  /** The entries of `rest`, a rearrangement of the tail of `xs` plus an older
      `x`, are none of them newer than the head of `xs`. */
  lemma NotNewerThanHead(x: SessionSummary, xs: seq<SessionSummary>, rest: seq<SessionSummary>)
    requires xs != [] && SortedByLastDesc(xs) && x.lastMessage < xs[0].lastMessage
    requires multiset(rest) == multiset(xs[1..]) + multiset{x}
    ensures forall y :: y in rest ==> y.lastMessage <= xs[0].lastMessage
  {
    forall y | y in rest ensures y.lastMessage <= xs[0].lastMessage {
      assert y in multiset(rest);
      if y != x {
        assert y in xs[1..];
        var k :| 0 <= k < |xs[1..]| && xs[1..][k] == y;
        assert xs[k + 1] == y;
      }
    }
  }

  /** Inserting an entry whose session is not yet listed keeps the ids distinct. */
  lemma {:induction false} InsertKeepsDistinct(x: SessionSummary, xs: seq<SessionSummary>)
    requires SortedByLastDesc(xs) && DistinctIds(xs)
    requires forall y :: y in xs ==> y.sessionId != x.sessionId
    ensures DistinctIds(Insert(x, xs))
  {
    if xs == [] || x.lastMessage >= xs[0].lastMessage {
    } else {
      InsertKeepsDistinct(x, xs[1..]);
      var rest := Insert(x, xs[1..]);
      assert Insert(x, xs) == [xs[0]] + rest;
      forall y | y in rest ensures y.sessionId != xs[0].sessionId {
        assert y in multiset(rest);
        if y != x {
          var k :| 0 <= k < |xs[1..]| && xs[1..][k] == y;
          assert xs[k + 1] == y;
        }
      }
    }
  }

  /** ORDER BY last_message DESC (the order among equal timestamps is unspecified
      in SQL; this model keeps one). */
  function SortByLastDesc(xs: seq<SessionSummary>): (r: seq<SessionSummary>)
    ensures SortedByLastDesc(r)
    ensures multiset(r) == multiset(xs)
  {
    if xs == [] then []
    else
      assert xs == [xs[0]] + xs[1..];
      Insert(xs[0], SortByLastDesc(xs[1..]))
  }

  /** Sorting a list with distinct session ids keeps them distinct. */
  lemma {:induction false} SortKeepsDistinct(xs: seq<SessionSummary>)
    requires DistinctIds(xs)
    ensures DistinctIds(SortByLastDesc(xs))
  {
    if xs != [] {
      assert xs == [xs[0]] + xs[1..];
      var rest := SortByLastDesc(xs[1..]);
      SortKeepsDistinct(xs[1..]);
      forall y | y in rest ensures y.sessionId != xs[0].sessionId {
        assert y in multiset(rest);
        var k :| 0 <= k < |xs[1..]| && xs[1..][k] == y;
        assert xs[k + 1] == y;
      }
      InsertKeepsDistinct(xs[0], rest);
    }
  }

  /** `e.lastMessage` is the greatest `createdAt` of its session and `e.sessionPath`
      comes from a row that carries it. */
  predicate IsLatestOf(rows: seq<Row>, e: SessionSummary) {
    && (exists k :: 0 <= k < |rows| && rows[k].sessionId == e.sessionId
                    && rows[k].createdAt == e.lastMessage && rows[k].sessionPath == e.sessionPath)
    && (forall k :: 0 <= k < |rows| && rows[k].sessionId == e.sessionId ==> rows[k].createdAt <= e.lastMessage)
  }

  /** `getAllSessions`: one entry per distinct session id with its row count and
      latest timestamp, newest session first. */
  function GetAllSessions(t: Table): (r: seq<SessionSummary>)
    ensures SortedByLastDesc(r)
    ensures DistinctIds(r)
    ensures (set e | e in r :: e.sessionId) == (set row | row in t.rows :: row.sessionId)
    ensures forall e :: e in r ==> e.messageCount == |OfSession(t.rows, e.sessionId)| > 0
    ensures forall e :: e in r ==> IsLatestOf(t.rows, e)
  {
    AllSessionsFacts(t.rows);
    SortByLastDesc(SummariseAll(t.rows, SessionIds(t.rows)))
  }

  lemma AllSessionsFacts(rows: seq<Row>)
    ensures var r := SortByLastDesc(SummariseAll(rows, SessionIds(rows)));
            && DistinctIds(r)
            && (set e | e in r :: e.sessionId) == (set row | row in rows :: row.sessionId)
            && (forall e :: e in r ==> e.messageCount == |OfSession(rows, e.sessionId)| > 0)
            && (forall e :: e in r ==> IsLatestOf(rows, e))
  {
    var ids := SessionIds(rows);
    var groups := SummariseAll(rows, ids);
    var r := SortByLastDesc(groups);
    GroupsFacts(rows, ids, groups);
    SortKeepsDistinct(groups);
    SameElements(groups, r);
  }

  lemma SameElements(xs: seq<SessionSummary>, ys: seq<SessionSummary>)
    requires multiset(xs) == multiset(ys)
    ensures forall e :: e in xs <==> e in ys
    ensures (set e | e in xs :: e.sessionId) == (set e | e in ys :: e.sessionId)
  {
    assert forall e :: e in xs <==> e in ys by {
      forall e ensures e in xs <==> e in ys {
        assert e in xs <==> e in multiset(xs);
        assert e in ys <==> e in multiset(ys);
      }
    }
  }

  lemma {:induction false} OfSessionComplete(rows: seq<Row>, s: string, k: int)
    requires 0 <= k < |rows| && rows[k].sessionId == s
    ensures rows[k] in OfSession(rows, s)
  {
    if k < |rows| - 1 {
      OfSessionComplete(rows[..|rows| - 1], s, k);
    }
  }

  lemma SummaryIsLatest(rows: seq<Row>, s: string)
    requires s in SessionIds(rows)
    ensures IsLatestOf(rows, Summarise(rows, s))
    ensures Summarise(rows, s).sessionId == s
    ensures Summarise(rows, s).messageCount == |OfSession(rows, s)| > 0
  {
    var e := Summarise(rows, s);
    var k :| 0 <= k < |rows| && rows[k].sessionId == s;
    OfSessionNonEmpty(rows, s, k);
    var group := OfSession(rows, s);
    var p := Peak(group);
    var m :| 0 <= m < |rows| && rows[m] == p;
    forall k | 0 <= k < |rows| && rows[k].sessionId == s ensures rows[k].createdAt <= e.lastMessage {
      OfSessionComplete(rows, s, k);
    }
  }

  lemma GroupsFacts(rows: seq<Row>, ids: seq<string>, groups: seq<SessionSummary>)
    requires ids == SessionIds(rows)
    requires groups == SummariseAll(rows, ids)
    ensures DistinctIds(groups)
    ensures (set e | e in groups :: e.sessionId) == (set row | row in rows :: row.sessionId)
    ensures forall e :: e in groups ==> e.messageCount == |OfSession(rows, e.sessionId)| > 0
    ensures forall e :: e in groups ==> IsLatestOf(rows, e)
  {
    GroupsPointwise(rows, ids, groups);
    GroupIds(rows, ids, groups);
  }

  lemma GroupsPointwise(rows: seq<Row>, ids: seq<string>, groups: seq<SessionSummary>)
    requires ids == SessionIds(rows)
    requires groups == SummariseAll(rows, ids)
    ensures forall i :: 0 <= i < |groups| ==> groups[i].sessionId == ids[i]
    ensures DistinctIds(groups)
    ensures forall e :: e in groups ==> e.messageCount == |OfSession(rows, e.sessionId)| > 0
    ensures forall e :: e in groups ==> IsLatestOf(rows, e)
  {
    forall i | 0 <= i < |groups|
      ensures groups[i].sessionId == ids[i] && IsLatestOf(rows, groups[i])
      ensures groups[i].messageCount == |OfSession(rows, ids[i])| > 0
    {
      SummaryIsLatest(rows, ids[i]);
    }
  }

  lemma GroupIds(rows: seq<Row>, ids: seq<string>, groups: seq<SessionSummary>)
    requires ids == SessionIds(rows)
    requires |groups| == |ids|
    requires forall i :: 0 <= i < |groups| ==> groups[i].sessionId == ids[i]
    ensures (set e | e in groups :: e.sessionId) == (set row | row in rows :: row.sessionId)
  {
    var a := set e | e in groups :: e.sessionId;
    var b := set row | row in rows :: row.sessionId;
    forall s | s in b ensures s in a {
      var row :| row in rows && row.sessionId == s;
      var k :| 0 <= k < |rows| && rows[k] == row;
      assert s in ids;
      var i :| 0 <= i < |ids| && ids[i] == s;
      assert groups[i] in groups;
    }
    forall s | s in a ensures s in b {
      var e :| e in groups && e.sessionId == s;
      var i :| 0 <= i < |groups| && groups[i] == e;
      assert ids[i] in ids;
      var k :| 0 <= k < |rows| && rows[k].sessionId == s;
      assert rows[k] in rows;
    }
  }
}

=== FILE: picker.dfy ===
/** The start-up session picker of src/ui/session-picker.tsx: item 0 starts a
    new session, item i > 0 is the (i-1)-th session of the current directory. */
module SessionPicker {
  import opened Results
  import opened Text

  /** A listed session. An empty `name` stands for a missing one (any falsy value).
      `lastMessageAt` is the time `new Date(last_message_at)` reads, in milliseconds,
      or `None` when the field is missing or does not parse (an invalid date). */
  datatype Session = Session(id: string, name: string, messageCount: nat, lastMessageAt: Option<int>)

  /** What Enter hands to `onSelect`: `null` (a new session), a session, or
      `undefined` when the index is past the list. */
  datatype Choice = NewSession | Existing(session: Session) | NoSession

  /** `totalItems`. */
  function ItemCount(sessions: seq<Session>): (n: nat)
    ensures n == |sessions| + 1 && n > 0
  {
    |sessions| + 1
  }

  /** Enter at `selectedIndex`. */
  function Select(sessions: seq<Session>, selectedIndex: int): (c: Choice)
    ensures selectedIndex == 0 <==> c == NewSession
    ensures 0 < selectedIndex < ItemCount(sessions) ==> c == Existing(sessions[selectedIndex - 1])
    ensures !(0 <= selectedIndex < ItemCount(sessions)) ==> c == NoSession
    ensures c.Existing? ==> c.session in sessions
  {
    if selectedIndex == 0 then NewSession
    else if 1 <= selectedIndex <= |sessions| then Existing(sessions[selectedIndex - 1])
    else NoSession
  }

  /** Enter hands over a new session or an existing one exactly on the items
      the list shows; past the end it hands over `undefined`. */
  lemma SelectDefinedOnItems(sessions: seq<Session>, i: int)
    ensures Select(sessions, i) != NoSession <==> 0 <= i < ItemCount(sessions)
  {
  }

  /** Every in-range item selects something, and distinct items distinct things. */
  lemma SelectInjective(sessions: seq<Session>, i: int, j: int)
    requires 0 <= i < j < ItemCount(sessions)
    requires forall a, b :: 0 <= a < b < |sessions| ==> sessions[a] != sessions[b]
    ensures Select(sessions, i) != NoSession && Select(sessions, i) != Select(sessions, j)
  {
  }

  /** The session's name, else "Session " and the first 8 characters of its id. */
  function DisplayName(s: Session): (r: string)
    ensures s.name != "" ==> r == s.name
    ensures s.name == "" ==> StartsWith(r, "Session ") && |r| == 8 + (if |s.id| < 8 then |s.id| else 8)
    ensures s.name == "" ==> StartsWith(s.id, r[8..])
  {
    if s.name != "" then s.name
    else "Session " + (if |s.id| <= 8 then s.id else s.id[..8])
  }

  const MinuteMs := 60000
  const HourMs := 3600000
  const DayMs := 86400000

  /** The age bucket `formatDate` picks for a difference of `diffMs` milliseconds. */
  datatype Age = JustNow | MinutesAgo(minutes: nat) | HoursAgo(hours: nat) | DaysAgo(days: nat) | Older

  /** The bucket chosen by floored divisions (Dafny's `/` with a positive
      divisor floors, as `Math.floor` does). */
  function AgeOf(diffMs: int): (a: Age)
    ensures a == JustNow <==> diffMs < MinuteMs
    ensures a.MinutesAgo? <==> MinuteMs <= diffMs < HourMs
    ensures a.HoursAgo? <==> HourMs <= diffMs < DayMs
    ensures a.DaysAgo? <==> DayMs <= diffMs < 7 * DayMs
    ensures a.MinutesAgo? ==> 1 <= a.minutes < 60 && a.minutes * MinuteMs <= diffMs < (a.minutes + 1) * MinuteMs
    ensures a.HoursAgo? ==> 1 <= a.hours < 24 && a.hours * HourMs <= diffMs < (a.hours + 1) * HourMs
    ensures a.DaysAgo? ==> 1 <= a.days < 7 && a.days * DayMs <= diffMs < (a.days + 1) * DayMs
  {
    var mins := diffMs / MinuteMs;
    var hours := diffMs / HourMs;
    var days := diffMs / DayMs;
    if mins < 1 then JustNow
    else if mins < 60 then MinutesAgo(mins)
    else if hours < 24 then HoursAgo(hours)
    else if days < 7 then DaysAgo(days)
    else Older
  }

  /** `formatDate(dateStr)` at clock reading `now`; `date` is the parsed time
      (`None` for an invalid date) and `localeDate` is what `toLocaleDateString`
      renders for a valid one. With an invalid date every comparison against NaN
      fails and the locale rendering of an invalid date is "Invalid Date". */
  function FormatDate(date: Option<int>, now: int, localeDate: string): (r: string)
    ensures date.None? ==> r == "Invalid Date"
    ensures date.Some? && now - date.value < MinuteMs ==> r == "just now"
    ensures date.Some? && MinuteMs <= now - date.value < HourMs ==>
            r == NatToString((now - date.value) / MinuteMs) + "m ago"
    ensures date.Some? && HourMs <= now - date.value < DayMs ==>
            r == NatToString((now - date.value) / HourMs) + "h ago"
    ensures date.Some? && DayMs <= now - date.value < 7 * DayMs ==>
            r == NatToString((now - date.value) / DayMs) + "d ago"
    ensures date.Some? && 7 * DayMs <= now - date.value ==> r == localeDate
  {
    match date
    case None => "Invalid Date"
    case Some(t) =>
      match AgeOf(now - t)
      case JustNow => "just now"
      case MinutesAgo(m) => NatToString(m) + "m ago"
      case HoursAgo(h) => NatToString(h) + "h ago"
      case DaysAgo(d) => NatToString(d) + "d ago"
      case Older => localeDate
  }

  /** Older timestamps never land in a younger bucket. */
  lemma AgeMonotonic(d1: int, d2: int)
    requires d1 <= d2
    ensures Rank(AgeOf(d1)) <= Rank(AgeOf(d2))
  {
  }

  function Rank(a: Age): nat {
    match a
    case JustNow => 0
    case MinutesAgo(_) => 1
    case HoursAgo(_) => 2
    case DaysAgo(_) => 3
    case Older => 4
  }

  /** Reading the number back from a "{m}m ago" shown recovers the floored minutes. */
  lemma MinutesLabelRoundTrip(date: int, now: int, localeDate: string)
    requires MinuteMs <= now - date < HourMs
    ensures var shown := FormatDate(Some(date), now, localeDate);
            EndsWith(shown, "m ago") && var digits := shown[..|shown| - 5];
            AllDigits(digits) && DigitsValue(digits) == (now - date) / MinuteMs
  {
    var m := AgeOf(now - date).minutes;
    var shown := FormatDate(Some(date), now, localeDate);
    assert shown == NatToString(m) + "m ago";
    assert shown[..|shown| - 5] == NatToString(m);
    NatToStringRoundTrip(m);
  }
}

=== FILE: provider.dfy ===
/** Model routing of src/lib/provider.ts: a provider name resolves to a backend
    (as a tag, the SDK constructors being outside the model) and the model name. */
module Provider {
  import opened Results
  import opened Text
  import Config

  /** The SDK a provider routes to. OpenAI-compatible routes carry the base URL
      and the configured API key. */
  datatype Backend =
    | Google
    | Anthropic
    | Groq
    | Xai
    | GeminiCli
    | OpenAICompatible(baseUrl: string, apiKey: Option<string>)

  /** A resolved model handle. */
  datatype Model = Model(backend: Backend, modelId: string)

  /** OPENAI_COMPATIBLE_URLS. */
  const OpenAICompatibleUrls: map<string, string> := map[
    "deepseek" := "https://api.deepseek.com",
    "qwen" := "https://dashscope.aliyuncs.com/compatible-mode/v1",
    "kimi" := "https://api.moonshot.cn/v1",
    "minimax" := "https://api.minimax.chat/v1",
    "openai" := "https://api.openai.com/v1"
  ]

  /** Providers with their own SDK. */
  const NativeProviders: set<string> := {"google", "anthropic", "groq", "xai", "gemini"}

  /** Providers served through the OpenAI-compatible client. */
  const CompatibleProviders: set<string> := {"openai", "deepseek", "qwen", "kimi", "minimax"}

  /** PROVIDER_MODELS, in declaration order (the order `Object.keys` lists). */
  const Catalogue: seq<(string, seq<string>)> := [
    ("google", ["gemini-2.5-flash", "gemini-2.5-pro", "gemini-2.0-flash"]),
    ("openai", ["gpt-4o", "gpt-4o-mini", "gpt-4-turbo", "o1", "o1-mini"]),
    ("anthropic", ["claude-sonnet-4-20250514", "claude-3-5-haiku-latest", "claude-3-opus-latest"]),
    ("groq", ["llama-3.3-70b-versatile", "llama-3.1-8b-instant", "mixtral-8x7b-32768"]),
    ("xai", ["grok-2", "grok-2-vision", "grok-beta"]),
    ("deepseek", ["deepseek-chat", "deepseek-reasoner"]),
    ("qwen", ["qwen-turbo", "qwen-plus", "qwen-max"]),
    ("kimi", ["moonshot-v1-8k", "moonshot-v1-32k", "moonshot-v1-128k"]),
    ("minimax", ["abab6.5-chat", "abab5.5-chat"]),
    ("gemini", ["gemini-2.5-flash", "gemini-2.5-pro", "gemini-3-pro-preview", "gemini-3-flash-preview"])
  ]

  /** `Object.keys(PROVIDER_MODELS)`. */
  function Providers(): (r: seq<string>)
    ensures |r| == |Catalogue|
    ensures forall i :: 0 <= i < |r| ==> r[i] == Catalogue[i].0
  {
    seq(|Catalogue|, i requires 0 <= i < |Catalogue| => Catalogue[i].0)
  }

  /** `PROVIDER_MODELS[name]`: the first catalogue entry with that name, if any. */
  function ModelsOf(name: string): (r: Option<seq<string>>)
    ensures r.Some? <==> name in Providers()
    ensures r.Some? ==> exists i :: 0 <= i < |Catalogue| && Catalogue[i] == (name, r.value)
  {
    Lookup(Catalogue, name)
  }

  function Lookup(entries: seq<(string, seq<string>)>, name: string): (r: Option<seq<string>>)
    ensures r.Some? <==> exists i :: 0 <= i < |entries| && entries[i].0 == name
    ensures r.Some? ==> exists i :: 0 <= i < |entries| && entries[i] == (name, r.value)
  {
    if entries == [] then None
    else if entries[0].0 == name then Some(entries[0].1)
    else
      var r := Lookup(entries[1..], name);
      assert forall i :: 1 <= i < |entries| ==> entries[i] == entries[1..][i - 1];
      r
  }

  /** `getModel(providerName?, modelName?)`: missing or empty arguments fall back
      to the configured values; an unknown provider throws. */
  function GetModel(f: Config.ConfigFile, providerName: Option<string>, modelName: Option<string>): (r: Result<Model, string>)
    ensures var provider := Or(providerName, Config.Load(f).provider);
            && (r.Ok? <==> provider in NativeProviders + CompatibleProviders)
            && (r.Err? ==> r.error == "Unknown provider: " + provider)
            && (r.Ok? ==> r.value.modelId == Or(modelName, Config.Load(f).model))
            && (provider in CompatibleProviders ==>
                  provider in OpenAICompatibleUrls
                  && r == Ok(Model(OpenAICompatible(OpenAICompatibleUrls[provider], Config.GetApiKey(f, provider)), r.value.modelId)))
            && (r.Ok? && provider in NativeProviders ==> !r.value.backend.OpenAICompatible?)
  {
    var config := Config.Load(f);
    var provider := Or(providerName, config.provider);
    var model := Or(modelName, config.model);
    var apiKey := Config.GetApiKey(f, provider);
    match provider
    case "google" => Ok(Model(Google, model))
    case "anthropic" => Ok(Model(Anthropic, model))
    case "groq" => Ok(Model(Groq, model))
    case "xai" => Ok(Model(Xai, model))
    case "gemini" => Ok(Model(GeminiCli, model))
    case "openai" => Ok(Model(OpenAICompatible(OpenAICompatibleUrls[provider], apiKey), model))
    case "deepseek" => Ok(Model(OpenAICompatible(OpenAICompatibleUrls[provider], apiKey), model))
    case "qwen" => Ok(Model(OpenAICompatible(OpenAICompatibleUrls[provider], apiKey), model))
    case "kimi" => Ok(Model(OpenAICompatible(OpenAICompatibleUrls[provider], apiKey), model))
    case "minimax" => Ok(Model(OpenAICompatible(OpenAICompatibleUrls[provider], apiKey), model))
    case _ => Err("Unknown provider: " + provider)
  }

  /** Each native provider has its own backend, distinct from the others. */
  lemma NativeRoutes(f: Config.ConfigFile, m: Option<string>)
    ensures GetModel(f, Some("google"), m).value.backend == Google
    ensures GetModel(f, Some("anthropic"), m).value.backend == Anthropic
    ensures GetModel(f, Some("groq"), m).value.backend == Groq
    ensures GetModel(f, Some("xai"), m).value.backend == Xai
    ensures GetModel(f, Some("gemini"), m).value.backend == GeminiCli
  {
  }

  /** The catalogue is consistent: names are distinct, every listed provider
      routes, and every model list is non-empty, so `[0]` is always a model. */
  lemma CatalogueConsistent(f: Config.ConfigFile, m: Option<string>)
    ensures forall i, j :: 0 <= i < j < |Catalogue| ==> Catalogue[i].0 != Catalogue[j].0
    ensures forall i :: 0 <= i < |Catalogue| ==> |Catalogue[i].1| > 0
    ensures forall i :: 0 <= i < |Catalogue| ==> GetModel(f, Some(Catalogue[i].0), m).Ok?
    ensures forall p :: p in NativeProviders + CompatibleProviders ==> p in Providers()
  {
    var names := Providers();
    assert names == ["google", "openai", "anthropic", "groq", "xai", "deepseek", "qwen", "kimi", "minimax", "gemini"];
  }

  /** Looking a catalogue provider up gives its own list. */
  lemma ModelsOfCatalogue(i: int)
    requires 0 <= i < |Catalogue|
    ensures ModelsOf(Catalogue[i].0) == Some(Catalogue[i].1)
  {
    CatalogueConsistent(Config.Missing, None);
    var r := ModelsOf(Catalogue[i].0);
    var j :| 0 <= j < |Catalogue| && Catalogue[j] == (Catalogue[i].0, r.value);
    assert i == j;
  }
}

=== FILE: results.dfy ===
/** Option and Result values used throughout the model in place of JavaScript's
    `undefined` and thrown exceptions. */
module Results {

  /** A value that may be absent (`undefined` in the source). */
  datatype Option<+T> = None | Some(value: T) {

    /** The carried value, or `default` when absent. */
    function GetOr(default: T): T {
      match this
      case Some(v) => v
      case None => default
    }
  }

  /** The outcome of an operation that can throw: a value or an error message. */
  datatype Result<+T, +E> = Ok(value: T) | Err(error: E)
}

=== FILE: shell.dfy ===
/** The result text of the in-process `shell` tool (src/tools/shell.ts). The
    spawned process is abstract: what it reported, or the error it threw. */
module Shell {
  import opened Results
  import opened Text

  /** What spawning `sh -c command` produced. */
  datatype Spawn = Exited(exitCode: int, stdout: string, stderr: string) | Threw(message: string)

  const FailurePrefix := "Command failed (exit code "
  const NoOutput := "(no output)"

  /** `cwd || process.cwd()`. */
  function WorkingDirectory(cwd: Option<string>, processCwd: string): (d: string)
    ensures cwd.Some? && cwd.value != "" ==> d == cwd.value
    ensures cwd.None? || cwd.value == "" ==> d == processCwd
  {
    Or(cwd, processCwd)
  }

  /** The text `execute` resolves to; it never throws. */
  function Execute(s: Spawn): (r: string)
    ensures |r| > 0
    ensures s.Threw? ==> r == "Error: " + s.message
    ensures s.Exited? && s.exitCode == 0 ==> r == (if s.stdout != "" then s.stdout else NoOutput)
    ensures s.Exited? && s.exitCode != 0 ==>
              r == FailurePrefix + IntToString(s.exitCode) + "):\n" + (if s.stderr != "" then s.stderr else s.stdout)
  {
    match s
    case Threw(message) => "Error: " + message
    case Exited(code, stdout, stderr) =>
      if code != 0 then FailurePrefix + IntToString(code) + "):\n" + Or(Some(stderr), stdout)
      else Or(Some(stdout), NoOutput)
  }

  /** Reads the exit code back out of a failure report. */
  function FailedExitCode(r: string): Option<int> {
    if StartsWith(r, FailurePrefix) then
      var rest := r[|FailurePrefix|..];
      var n := DigitsBefore(rest, ')');
      if n < |rest| then ParseInt(rest[..n]) else None
    else None
  }

  /** The length of the prefix of `s` before the first `stop`. */
  function DigitsBefore(s: string, stop: char): (n: nat)
    ensures n <= |s|
    ensures forall i :: 0 <= i < n ==> s[i] != stop
    ensures n < |s| ==> s[n] == stop
  {
    if s == [] || s[0] == stop then 0 else 1 + DigitsBefore(s[1..], stop)
  }

  /** A failed command's report names its exit code: reading it back gives the code. */
  lemma FailureReportNamesExitCode(code: int, stdout: string, stderr: string)
    requires code != 0
    ensures FailedExitCode(Execute(Exited(code, stdout, stderr))) == Some(code)
  {
    var digits := IntToString(code);
    var tail := "):\n" + (if stderr != "" then stderr else stdout);
    var r := Execute(Exited(code, stdout, stderr));
    assert r == FailurePrefix + digits + tail;
    assert StartsWith(r, FailurePrefix);
    var rest := r[|FailurePrefix|..];
    assert rest == digits + tail;
    assert forall i :: 0 <= i < |digits| ==> digits[i] != ')';
    assert rest[|digits|] == ')';
    var n := DigitsBefore(rest, ')');
    assert n == |digits|;
    assert rest[..n] == digits;
    IntToStringRoundTrip(code);
  }
}

=== FILE: text.dfy ===
/** The JavaScript string operations the source relies on (`trim`, `split`,
    `startsWith`, `endsWith`, `includes`, `toLowerCase`, number formatting and
    the `||` fallback on strings), stated over `seq<char>`. */
module Text {
  import opened Results

  /** The WhiteSpace and LineTerminator code points that `String.prototype.trim` strips. */
  predicate IsSpace(c: char) {
    || ('\t' <= c <= '\r') || c == ' ' || c == '\U{00A0}' || c == '\U{1680}'
    || ('\U{2000}' <= c <= '\U{200A}') || c == '\U{2028}' || c == '\U{2029}'
    || c == '\U{202F}' || c == '\U{205F}' || c == '\U{3000}' || c == '\U{FEFF}'
  }

  predicate AllSpace(s: string) {
    forall i :: 0 <= i < |s| ==> IsSpace(s[i])
  }

  /** Neither the first nor the last character is white space. */
  predicate IsTrimmed(s: string) {
    s == [] || (!IsSpace(s[0]) && !IsSpace(s[|s| - 1]))
  }

  /** The first index at or after `k` that does not hold white space, or `|s|`. */
  function SkipSpace(s: string, k: nat): (n: nat)
    requires k <= |s|
    ensures k <= n <= |s|
    ensures forall i :: k <= i < n ==> IsSpace(s[i])
    ensures n < |s| ==> !IsSpace(s[n])
    decreases |s| - k
  {
    if k < |s| && IsSpace(s[k]) then SkipSpace(s, k + 1) else k
  }

  /** The index just past the last non-space character in `s[lo..k]`, or `lo`. */
  function BackSpace(s: string, lo: nat, k: nat): (n: nat)
    requires lo <= k <= |s|
    ensures lo <= n <= k
    ensures forall i :: n <= i < k ==> IsSpace(s[i])
    ensures n > lo ==> !IsSpace(s[n - 1])
    decreases k
  {
    if k > lo && IsSpace(s[k - 1]) then BackSpace(s, lo, k - 1) else k
  }

  /** `s.trim()`: the slice between the leading and the trailing white space. */
  function Trim(s: string): (r: string)
    ensures IsTrimmed(r)
    ensures r == [] <==> AllSpace(s)
  {
    var a := SkipSpace(s, 0);
    s[a..BackSpace(s, a, |s|)]
  }

  /** `trim` removes only white space, and only at the two ends. */
  lemma TrimIsSlice(s: string)
    ensures var r := Trim(s); var lo := SkipSpace(s, 0);
            lo + |r| <= |s| && r == s[lo..lo + |r|] && AllSpace(s[..lo]) && AllSpace(s[lo + |r|..])
  {
    var lo := SkipSpace(s, 0);
    var hi := BackSpace(s, lo, |s|);
    assert AllSpace(s[..lo]) by {
      forall i | 0 <= i < lo ensures IsSpace(s[..lo][i]) { assert s[..lo][i] == s[i]; }
    }
    assert AllSpace(s[hi..]) by {
      forall i | 0 <= i < |s| - hi ensures IsSpace(s[hi..][i]) { assert s[hi..][i] == s[hi + i]; }
    }
  }

  /** Trimming a trimmed string changes nothing. */
  lemma TrimTrimmed(s: string)
    requires IsTrimmed(s)
    ensures Trim(s) == s
  {
  }

  /** `trim` is idempotent. */
  lemma TrimIdempotent(s: string)
    ensures Trim(Trim(s)) == Trim(s)
  {
    TrimTrimmed(Trim(s));
  }

  function StartsWith(s: string, prefix: string): bool {
    |prefix| <= |s| && s[..|prefix|] == prefix
  }

  function EndsWith(s: string, suffix: string): bool {
    |suffix| <= |s| && s[|s| - |suffix|..] == suffix
  }

  /** `sub` occurs in `s` starting at index `i`. */
  predicate OccursAt(s: string, sub: string, i: int) {
    0 <= i && i + |sub| <= |s| && s[i..i + |sub|] == sub
  }

  /** `s.includes(sub)`: `sub` occurs in `s` at some position. */
  function Contains(s: string, sub: string): (b: bool)
    ensures b <==> exists i :: OccursAt(s, sub, i)
  {
    if StartsWith(s, sub) then
      assert OccursAt(s, sub, 0);
      true
    else if |s| == 0 then
      false
    else
      var b := Contains(s[1..], sub);
      assert forall i :: OccursAt(s[1..], sub, i) <==> OccursAt(s, sub, i + 1) by {
        forall i ensures OccursAt(s[1..], sub, i) <==> OccursAt(s, sub, i + 1) {
          if 0 <= i && i + |sub| <= |s[1..]| {
            assert s[1..][i..i + |sub|] == s[i + 1..i + 1 + |sub|];
          }
        }
      }
      assert (exists i :: OccursAt(s, sub, i)) ==> b by {
        if exists i :: OccursAt(s, sub, i) {
          var i :| OccursAt(s, sub, i);
          assert i != 0;
          assert OccursAt(s[1..], sub, i - 1);
        }
      }
      b
  }

  /** ASCII upper-case letters lowered, everything else kept. */
  function LowerChar(c: char): char {
    if 'A' <= c <= 'Z' then (c as int + 32) as char else c
  }

  /** `toLowerCase` restricted to ASCII letters. */
  function ToLower(s: string): (r: string)
    ensures |r| == |s|
    ensures forall i :: 0 <= i < |s| ==> r[i] == LowerChar(s[i])
  {
    if s == [] then [] else [LowerChar(s[0])] + ToLower(s[1..])
  }

  /** JavaScript's `x || fallback` for an optional string: an absent or empty `x` is falsy. */
  function Or(x: Option<string>, fallback: string): (r: string)
    ensures x.Some? && x.value != "" ==> r == x.value
    ensures x.None? || x.value == "" ==> r == fallback
  {
    if x.Some? && x.value != "" then x.value else fallback
  }

  /** The parts joined back together, `sep` between neighbours (`parts.join(sep)`). */
  function Join(parts: seq<string>, sep: char): string
    requires |parts| >= 1
  {
    if |parts| == 1 then parts[0] else parts[0] + [sep] + Join(parts[1..], sep)
  }

  /** `s.split(sep)` for a one-character separator. */
  function Split(s: string, sep: char): (parts: seq<string>)
    ensures |parts| >= 1
    ensures forall i :: 0 <= i < |parts| ==> sep !in parts[i]
    ensures Join(parts, sep) == s
  {
    if s == [] then
      [""]
    else
      var rest := Split(s[1..], sep);
      if s[0] == sep then
        assert [""] + rest == [""] + rest;
        assert ([""] + rest)[1..] == rest;
        [""] + rest
      else
        var parts := [[s[0]] + rest[0]] + rest[1..];
        assert parts[1..] == rest[1..];
        parts
  }

  /** Splitting is the inverse of joining parts that do not contain the separator. */
  lemma {:induction false} SplitJoin(parts: seq<string>, sep: char)
    requires |parts| >= 1
    requires forall i :: 0 <= i < |parts| ==> sep !in parts[i]
    ensures Split(Join(parts, sep), sep) == parts
    decreases |Join(parts, sep)|, |parts[0]|
  {
    var s := Join(parts, sep);
    if |parts| == 1 {
      SplitNoSep(parts[0], sep);
    } else if parts[0] == [] {
      assert s == [sep] + Join(parts[1..], sep);
      assert s[1..] == Join(parts[1..], sep);
      SplitJoin(parts[1..], sep);
    } else {
      var shorter := [parts[0][1..]] + parts[1..];
      assert shorter[1..] == parts[1..];
      assert Join(shorter, sep) == s[1..];
      assert sep !in parts[0][1..] by {
        assert forall k :: 0 <= k < |parts[0][1..]| ==> parts[0][1..][k] == parts[0][k + 1];
      }
      SplitJoin(shorter, sep);
      assert s[0] == parts[0][0];
      assert parts[0] == [parts[0][0]] + parts[0][1..];
    }
  }

  /** A string without the separator splits into itself alone. */
  lemma {:induction false} SplitNoSep(s: string, sep: char)
    requires sep !in s
    ensures Split(s, sep) == [s]
  {
    if s != [] {
      assert sep !in s[1..] by {
        assert forall k :: 0 <= k < |s[1..]| ==> s[1..][k] == s[k + 1];
      }
      SplitNoSep(s[1..], sep);
      assert s == [s[0]] + s[1..];
    }
  }

  predicate IsDigit(c: char) {
    '0' <= c <= '9'
  }

  predicate AllDigits(s: string) {
    forall i :: 0 <= i < |s| ==> IsDigit(s[i])
  }

  function DigitChar(d: nat): (c: char)
    requires d < 10
    ensures IsDigit(c) && c as int - '0' as int == d
  {
    ('0' as int + d) as char
  }

  /** The decimal rendering of a natural number, without leading zeros (`String(n)`). */
  function NatToString(n: nat): (r: string)
    ensures |r| >= 1 && AllDigits(r)
    ensures r[0] == '0' ==> n == 0
  {
    if n < 10 then [DigitChar(n)] else NatToString(n / 10) + [DigitChar(n % 10)]
  }

  /** The value of a string of decimal digits. */
  function DigitsValue(s: string): nat
    requires AllDigits(s)
  {
    if s == [] then 0 else 10 * DigitsValue(s[..|s| - 1]) + (s[|s| - 1] as int - '0' as int)
  }

  /** Reading back a rendered natural number gives that number. */
  lemma {:induction false} NatToStringRoundTrip(n: nat)
    ensures DigitsValue(NatToString(n)) == n
  {
    if n >= 10 {
      var r := NatToString(n);
      assert r[..|r| - 1] == NatToString(n / 10);
      NatToStringRoundTrip(n / 10);
    }
  }

  /** The decimal rendering of an integer (`${i}` in a template literal). */
  function IntToString(i: int): (r: string)
    ensures |r| >= 1
    ensures i < 0 <==> r[0] == '-'
    ensures forall k :: 0 < k < |r| ==> IsDigit(r[k])
  {
    if i < 0 then "-" + NatToString(-i) else NatToString(i)
  }

  /** Reads an optionally negative decimal integer. */
  function ParseInt(s: string): Option<int> {
    if |s| > 1 && s[0] == '-' && AllDigits(s[1..]) then Some(-(DigitsValue(s[1..]) as int))
    else if |s| > 0 && AllDigits(s) then Some(DigitsValue(s))
    else None
  }

  /** Reading back a rendered integer gives that integer. */
  lemma IntToStringRoundTrip(i: int)
    ensures ParseInt(IntToString(i)) == Some(i)
  {
    if i < 0 {
      assert IntToString(i)[1..] == NatToString(-i);
      NatToStringRoundTrip(-i);
    } else {
      NatToStringRoundTrip(i);
    }
  }
}
